=== FILE: README.md ===
# A Dafny model of three security and monitoring scripts

This project models the logic of three small Python tools and proves
properties of that logic:

- **The RSS-to-Slack bot** (`bot2024/sendtoslackwtrans.py`). It keeps
  settings, keywords, feed URLs and a ledger of handled article URLs in
  SQLite, and the administrative routes edit them. On every scheduled run,
  `process_feeds` walks the entries of every feed. It skips links already in
  the ledger and matches keywords against `title + " " + summary`. It
  translates the summary into Japanese when the text has no Japanese
  character, marks each new link, and then posts the queued messages to
  Slack.
  - `text.dfy` holds the Python string operations involved: `strip`,
    `in`, `split` and `join`.
  - `feed_store.dfy` holds the tables, the scheduler and the add and
    delete routes.
  - `feed_run.dfy` holds one run.
- **The Google API key checker** (`check_google_api_key.py`). It walks a
  Discovery document for its methods and builds a probe URL for each one,
  filling `{placeholders}` with `test` and appending `key=`. It probes the
  methods, either until one answers 200 or 400 or all of them, under an
  optional per-API limit. It also selects which APIs to check.
  - `discovery.dfy` holds the offline part.
  - `key_probe.dfy` holds the probing loops.
- **The AWS credential checker page** (`awsuser/app.py`), in
  `aws_check.dfy`. It asks STS who the caller is and reads IAM policies by
  role or by user according to the ARN. It flags strong managed policies.
  When the policy lookup failed, it falls back to the policy simulator and
  to a few read-only calls.

Everything outside the program is a parameter of the model:

- SQLite becomes an immutable `Store` value that each operation returns
  anew.
- Fetching a feed, translating, posting to Slack, HTTP requests, fetching
  Discovery documents and every AWS call are function parameters. Each of
  them returns a value or an exception.

## Model

| member | source | states |
|---|---|---|
| Text.TrimStart | bot2024/sendtoslackwtrans.py:234 | the result is a suffix of the input; everything removed is whitespace, and the result does not start with whitespace |
| Text.TrimEnd | bot2024/sendtoslackwtrans.py:234 | the result is a prefix of the input; everything removed is whitespace, and the result does not end with whitespace |
| Text.Strip | bot2024/sendtoslackwtrans.py:234 | the input is the result with an all-whitespace border on each side; the result neither starts nor ends with whitespace; it is empty exactly when the input is all whitespace |
| Text.Contains | bot2024/sendtoslackwtrans.py:173 | `sub in s` holds exactly when `sub` occurs at some position of `s` |
| Text.Split | awsuser/app.py:136 | a split has at least one part and no part contains the separator |
| Text.JoinSplit | awsuser/app.py:136 | joining the parts of `s.split(c)` with `c` gives back `s` |
| Text.SplitAtFirst | awsuser/app.py:136 | the text before the first separator is the first part, and the rest is split on its own |
| Text.SplitJoin | awsuser/app.py:136 | splitting a join of separator-free parts gives back exactly those parts |
| FeedStore.AddKeyword | bot2024/sendtoslackwtrans.py:102-108 | true exactly when the keyword was absent; on true it is appended, on false nothing changes; the keyword column stays duplicate-free; the other tables are untouched |
| FeedStore.AddRssUrl | bot2024/sendtoslackwtrans.py:114-120 | the same for feed URLs: insert-if-absent, duplicate-free, other tables untouched |
| FeedStore.RemoveValue | bot2024/sendtoslackwtrans.py:111 | a DELETE removes exactly the matching rows; uniqueness is kept, and one row goes when the value was present |
| FeedStore.RemoveValueKeepsOrder | bot2024/sendtoslackwtrans.py:111 | with unique rows, deleting a present value takes out the one row holding it and keeps the rows before and after it in their order |
| FeedStore.DeleteKeyword | bot2024/sendtoslackwtrans.py:110-112 | afterwards the keyword is absent and every other keyword is kept, in its order; an absent keyword changes nothing; the other tables are untouched |
| FeedStore.DeleteRssUrl | bot2024/sendtoslackwtrans.py:122-124 | afterwards the URL is absent and every other URL is kept, in its order; an absent URL changes nothing; the other tables are untouched |
| FeedStore.MarkUrlAsSent | bot2024/sendtoslackwtrans.py:126-132 | afterwards `is_url_sent` holds for the URL; the ledger gains only that URL; marking twice is the same as marking once |
| FeedStore.UpdateLastRunTime | bot2024/sendtoslackwtrans.py:97-100 | does nothing without a settings row; otherwise only the timestamp changes |
| FeedStore.UpdateScheduler | bot2024/sendtoslackwtrans.py:200-203 | whatever was scheduled before, exactly one job remains, at the new interval |
| FeedStore.SetSettings | bot2024/sendtoslackwtrans.py:88-95 | the row holds the new token, channel and interval with `last_run_time` reset to NULL; the scheduler is in sync with it; the other tables are untouched |
| FeedStore.InitialInterval | bot2024/sendtoslackwtrans.py:205-210 | the start interval is never 0: it is the stored interval when non-zero, and 30 otherwise |
| FeedStore.Startup | bot2024/sendtoslackwtrans.py:205-212 | the process starts with the store as found and a single job at the initial interval |
| FeedStore.AddRoute | bot2024/sendtoslackwtrans.py:232-242 | a missing field is a server error; the input is invalid exactly when it is all whitespace; otherwise the stripped value, which has no whitespace at either end, is inserted; only a successful insert changes the store |
| FeedStore.AddKeywordRoute | bot2024/sendtoslackwtrans.py:232-242 | the request is a duplicate exactly when the stripped keyword is already stored; on success exactly the stripped keyword is appended; no blank keyword is ever stored; the settings, feed URLs and ledger are untouched |
| FeedStore.AddRssUrlRoute | bot2024/sendtoslackwtrans.py:250-260 | the same for feed URLs, with the settings, keywords and ledger untouched |
| FeedStore.DeleteKeywordRoute | bot2024/sendtoslackwtrans.py:244-248 | the raw value is removed, and from unique rows at its position with the others kept in order; a missing field matches no row and changes nothing; the settings, feed URLs and ledger are untouched |
| FeedStore.DeleteRssUrlRoute | bot2024/sendtoslackwtrans.py:262-266 | the raw URL is removed, and from unique rows at its position with the others kept in order; a missing field changes nothing; the settings, keywords and ledger are untouched |
| FeedRun.ContainsJapanese | bot2024/sendtoslackwtrans.py:62-64 | true exactly when some character is kana (U+3040-U+30FF) or a CJK ideograph (U+4E00-U+9FFF) |
| FeedRun.ContainsJapaneseConcat | bot2024/sendtoslackwtrans.py:170-179 | the content `title + " " + summary` holds a Japanese character exactly when one of its parts does |
| FeedRun.TranslateToJapanese | bot2024/sendtoslackwtrans.py:66-74 | the translation when the service answers, and the original text when it fails |
| FeedRun.MatchedKeywords | bot2024/sendtoslackwtrans.py:172-173 | the matched keywords are exactly the non-empty keywords occurring in the content, kept in keyword order |
| FeedRun.MatchingIsCaseSensitive | bot2024/sendtoslackwtrans.py:173 | `security` does not match the title `Security fix`, while `Security` does |
| FeedRun.MessageSummary | bot2024/sendtoslackwtrans.py:176-182 | the summary is kept when the content has Japanese or the translation fails; otherwise it is replaced by its translation |
| FeedRun.JapaneseSummaryKept | bot2024/sendtoslackwtrans.py:176-182 | a summary that itself holds Japanese is never translated, whatever the title |
| FeedRun.ForeignSummaryTranslated | bot2024/sendtoslackwtrans.py:176-182 | when neither title nor summary holds Japanese, an available translation always replaces the summary |
| FeedRun.FormatMessage | bot2024/sendtoslackwtrans.py:175-184 | the message contains the title, the link, the summary and the comma-joined keywords |
| FeedRun.EntryMessage | bot2024/sendtoslackwtrans.py:168-188 | an entry yields a message exactly when a keyword matched; the message carries the link, the title and the summary as translated |
| FeedRun.ScanEntries | bot2024/sendtoslackwtrans.py:159-190 | the walk reaches the end exactly when every entry has a link; the ledger only gains links of the entries, and all of them when the walk completes |
| FeedRun.StoppedScanKeepsMarks | bot2024/sendtoslackwtrans.py:159-190 | a walk stopped by an entry without a link leaves the ledger holding exactly the old links plus the links of the entries before that entry |
| FeedRun.QueueOnlyFresh | bot2024/sendtoslackwtrans.py:163-190 | no queued message is for a link already in the ledger, and no link is queued twice, even when feeds repeat an entry |
| FeedRun.QueueFromFreshEntries | bot2024/sendtoslackwtrans.py:163-190 | every queued message is exactly the message of the first entry carrying a link new to the ledger |
| FeedRun.QueueHasEveryMatch | bot2024/sendtoslackwtrans.py:163-190 | in a walk that completes, every first entry with a new link that matches a keyword has its message queued |
| FeedRun.ScanOfSentEntries | bot2024/sendtoslackwtrans.py:163-167 | when every link is already in the ledger, the walk queues nothing and adds nothing |
| FeedRun.QueuedAreMarked | bot2024/sendtoslackwtrans.py:185-190 | every queued message's link is in the ledger when the walk ends, posted or not |
| FeedRun.Deliver | bot2024/sendtoslackwtrans.py:134-145 | the messages are posted in queue order with the stored token and channel; a rejected post is only logged; the first post that raises is the last one made |
| FeedRun.ProcessFeeds | bot2024/sendtoslackwtrans.py:147-195 | without settings nothing happens; the keywords and URLs are untouched; a missing link aborts the run before any post, with the ledger holding the links of the entries before it; otherwise every fetched link is in the ledger, matched or not, whether or not a post raises; the posts are a prefix of the queue sent with the stored token and channel, a run that stops early stops at the one post that raised, and a completed run posts every queued message in order and stamps `last_run_time`, which no other outcome does |
| FeedRun.RerunIsQuiet | bot2024/sendtoslackwtrans.py:147-195 | a second run over the same feed contents after a completed run posts nothing and leaves the ledger as it was |
| FeedRun.UnpostedMessagesAreDropped | bot2024/sendtoslackwtrans.py:185-194 | when a post raises, the messages after it are already in the ledger, and no later run queues them again |
| Discovery.ExtractAllMethods | check_google_api_key.py:28-55 | the top-level methods come first, and every method slot of the resource tree appears exactly once |
| Discovery.ResourcesBagOfWalk | check_google_api_key.py:42-50 | the recursive walk visits every method of every resource and sub-resource exactly once |
| Discovery.WalkIsPreOrder | check_google_api_key.py:42-50 | for every resource of a list, the walk lists the methods of the resources before it, then its own methods, then those of its whole subtree, then those of the resources after it |
| Discovery.PlaceholderAt | check_google_api_key.py:76 | a placeholder starts with `{` and ends at the first `}` after it, with at least one character between them |
| Discovery.SubstPlaceholders | check_google_api_key.py:76 | a path without `{` is left unchanged |
| Discovery.SubstFillsTemplate | check_google_api_key.py:76 | substituting a rendered path template gives the template with every placeholder replaced by `test` and every other character kept |
| Discovery.UrlJoin | check_google_api_key.py:79 | an empty or missing reference gives the base; an empty base gives the reference |
| Discovery.ChooseBase | check_google_api_key.py:64-71 | rootUrl and servicePath are used when both are set; otherwise baseUrl; there is no base exactly when neither choice is available |
| Discovery.AppendKey | check_google_api_key.py:81-86 | the URL is kept as a prefix and followed by `&` exactly when it already holds `?` (`?` otherwise), then by `key=` and the key |
| Discovery.BuildTestRequestUrl | check_google_api_key.py:57-86 | no URL exactly when no base is available; otherwise the key parameter appended to some URL, so a query string that ends in `key=<key>` |
| Discovery.ProbeUrlOfTemplate | check_google_api_key.py:57-86 | for a path that renders a template, the URL is the chosen base joined with the service path, joined with the template with every placeholder filled with `test`, followed by the key parameter |
| KeyProbe.TestMethod | check_google_api_key.py:88-163 | ok exactly when a status came back and it is 200 or 400; no URL, or a verb other than GET and POST, gives not-ok without a status; for a GET or POST with a URL, the status and text are those of the response, and a request exception gives not-ok without a status |
| KeyProbe.NoRequestWithoutUrlOrVerb | check_google_api_key.py:106-142 | without a URL, or for another verb, the result does not depend on the network |
| KeyProbe.Budget | check_google_api_key.py:172-173 | the methods tested per API are all of them when the limit is not positive, and at most the limit otherwise |
| KeyProbe.TestAllMethods | check_google_api_key.py:237-252 | exactly the first budget-many methods are tested, in order, and their results recorded |
| KeyProbe.TestUntilUsable | check_google_api_key.py:281-313 | the hit is the first ok method, and nothing before it was ok; nothing is found exactly when no method within the budget is ok |
| KeyProbe.MatchingApis | check_google_api_key.py:191-195 | the filtered list holds exactly the APIs with that name and version |
| KeyProbe.MatchingCount | check_google_api_key.py:191-201 | the filtered list is as long as the number of matching positions |
| KeyProbe.SelectApis | check_google_api_key.py:190-210 | a lone name or version is an error; neither means all APIs; with both, no match and several matches are errors, and success means one matching API |
| KeyProbe.CheckApi | check_google_api_key.py:213-313 | an API is skipped when its document cannot be fetched or has no methods, and in first-success mode also when no method within the budget is ok; otherwise its record names the API and holds, in all-methods mode, the results of exactly the first budget-many methods in order with `usable` true exactly when one is ok, and in first-success mode the result of the first ok method |
| KeyProbe.CheckApis | check_google_api_key.py:212-313 | one record per recorded API and none for the others, in API order, each the record `CheckApi` promises for its API |
| AwsCheck.ClassifyArn | awsuser/app.py:132-163 | an ARN mentioning `assumed-role` takes the role branch, which needs three `/`-separated parts; otherwise one mentioning `user` takes the user branch; anything else is unknown |
| AwsCheck.RoleNameOfSessionArn | awsuser/app.py:134-138 | for `arn:aws:sts::<account>:assumed-role/<role>/<session>` the role name found is `<role>` |
| AwsCheck.RolePermissions | awsuser/app.py:134-147 | the role details, then the attached, then the inline role policies, each present exactly when its call and all earlier ones returned; an error is recorded exactly when the chain stopped, and it is the message of the call that raised |
| AwsCheck.UserPermissions | awsuser/app.py:150-161 | the same for the user chain, with the policies looked up under the user record's `UserName`, and the error the message of the call that raised |
| AwsCheck.GetPermissionsInfo | awsuser/app.py:125-166 | the branch follows the ARN kind; a malformed or unknown ARN only gets its message; an error appears exactly when a lookup raised |
| AwsCheck.StrongPrivileges | awsuser/app.py:250-263 | the strong names of the user and role policies without repetition, and nothing when there are none |
| AwsCheck.Decisions | awsuser/app.py:180-185 | the map's actions are exactly those of the evaluation results, with `unknown` for a missing action |
| AwsCheck.DecisionsKeepLast | awsuser/app.py:180-185 | an action evaluated several times keeps the decision of its last evaluation |
| AwsCheck.SimulatePolicy | awsuser/app.py:168-187 | a raising simulator gives a one-entry `error` map; otherwise every action maps to its last decision |
| AwsCheck.Outcome | awsuser/app.py:197-201 | `Success` exactly when the call returned; otherwise `Error: ` and the message |
| AwsCheck.SimulateReadOperations | awsuser/app.py:189-219 | exactly the three read calls are reported, each `Success` exactly when it returned |
| AwsCheck.Index | awsuser/app.py:221-278 | a GET shows the empty form; an identity failure shows only its error, prefixed by its kind; otherwise the report holds the identity, its permissions and the strong policies, and it holds a simulation exactly when the permissions carry a non-empty error |

## Left out

- All I/O is a parameter or absent: SQLite, the HTTP calls, feed parsing,
  googletrans, boto3 sessions, JSON output files, logging and the rendered
  HTML. Threads, the Flask server and argparse are not modelled. The
  scheduler is reduced to its job list, and timing and `time.sleep` are not
  modelled.
- `init_db` and its column migration are left out. A settings row is
  modelled as always having an interval, which `set_settings` always
  writes.
- `update_settings` is left out: `int()` parsing of the form interval
  belongs to the web layer, and only `set_settings` is modelled.
- `get_keywords`, `get_rss_urls` and the bot's `index` page are left out.
  They are plain reads of the `Store` fields.
- FeedStore.GetSettings has no contract, because it only reads the row.
  ProcessFeeds reads the settings through it.
- FeedStore.RemoveValue: the order of the remaining rows is proved only for
  rows without duplicates, which is what the UNIQUE keyword and URL
  columns hold. For other input, only which values remain is stated.
- FeedRun.Deliver: the Slack answer is reduced to acknowledged, rejected
  (only logged) or raised. The headers and the JSON body are not modelled.
- FeedRun.ProcessFeeds: the timestamp is a parameter rather than the
  clock, and a feed that cannot be fetched is an empty entry list.
- Discovery.UrlJoin: RFC 3986 reference resolution is a parameter. Only
  Python's early returns for an empty argument are fixed.
- Discovery.ExtractAllMethods: a method is reduced to its verb and path.
  Dictionaries are modelled in their iteration order.
- KeyProbe.TestMethod: the parsed query string and the JSON payload are
  reduced to which kind of parameters was sent. An exception other than
  `RequestException` is not modelled.
- KeyProbe.CheckApi: a failed Discovery fetch is a missing document.
  `fetch_discovery_apis` is the input list, and `sys.exit` is a `Failure`
  of `SelectApis`.
- AwsCheck: an exception from `session.client` itself is not modelled.
  JSON values are reduced to the string fields the page reads.
- AwsCheck.Index: the page for a POST whose identity call failed shows
  only the error, because `result` stays empty. An exception raised after
  the identity was read is not modelled, since every later step catches
  its own.
- `jwtssrf.py` is not part of this model.

Some behaviour of the code may be unexpected. The model follows the code
here:

- Keyword matching is case-sensitive. The keyword `security` does not
  match a title `Security patch` (FeedRun.MatchingIsCaseSensitive).
- A post to Slack that raises ends the run. The remaining messages are not
  posted and `last_run_time` is not updated. Only a response with
  `ok: false` lets the run go on.
- An entry without a link ends the run. The links marked before it stay
  marked.
- The simulation is triggered by a truthy `error`, so an empty error
  message does not trigger it.

=== FILE: aws_check.dfy ===
/** The AWS credential checker page: given an access key pair, it asks STS
    who the caller is, reads the caller's IAM policies (by role for an
    assumed-role ARN, by user for a user ARN), flags strong managed
    policies, and, when the policy lookup failed, falls back to the policy
    simulator and to trying a few read-only calls. AWS is an oracle: every
    call either returns its response or raises. */
module AwsCheck {
  import opened Wrappers
  import opened Text

  /** A JSON object from an AWS response, reduced to its string fields. */
  type Details = map<string, string>

  /** Python's `d.get(key)`. */
  function Get(d: Details, key: string): (r: Option<string>)
    ensures r.Some? <==> key in d
    ensures r.Some? ==> r.value == d[key]
  {
    if key in d then Some(d[key]) else None
  }

  /** The two kinds of exception the page tells apart; the text is `str(e)`. */
  datatype AwsError = ClientError(message: string) | OtherError(message: string)

  /** The outcome of one AWS call. */
  datatype Answer<+T> = Returned(value: T) | Raised(error: AwsError)

  /** The IAM calls the page makes. Each response is reduced to the one key
      the page reads from it, None when the response lacks that key. */
  datatype Iam = Iam(
    getRole: string -> Answer<Option<Details>>,
    listAttachedRolePolicies: string -> Answer<Option<seq<Details>>>,
    listRolePolicies: string -> Answer<Option<seq<string>>>,
    getUser: Answer<Option<Details>>,
    listAttachedUserPolicies: Option<string> -> Answer<Option<seq<Details>>>,
    listUserPolicies: Option<string> -> Answer<Option<seq<string>>>,
    simulatePrincipalPolicy: (Option<string>, seq<string>) -> Answer<Option<seq<Details>>>,
    listUsers: Answer<()>)

  /** What `get_permissions_info` returns: a dictionary in which each key
      may be absent. */
  datatype Permissions = Permissions(
    roleDetails: Option<Details>,
    attachedRolePolicies: Option<seq<Details>>,
    inlineRolePolicies: Option<seq<string>>,
    userDetails: Option<Details>,
    attachedUserPolicies: Option<seq<Details>>,
    inlineUserPolicies: Option<seq<string>>,
    message: Option<string>,
    error: Option<string>)

  const NoPermissions := Permissions(None, None, None, None, None, None, None, None)

  const ParseFailedMessage := "ARN の解析に失敗しました。"
  const UnknownArnMessage := "不明な ARN 形式です。"

  /** Which branch of `get_permissions_info` an ARN takes. */
  datatype ArnKind = AssumedRole(roleName: string) | MalformedRoleArn | IamUser | UnknownArn

  /** An ARN mentioning `assumed-role` is a role session, whatever else it
      mentions; its role name is the second `/`-separated component, provided
      there are at least three. Otherwise an ARN mentioning `user` is an IAM
      user. */
  function ClassifyArn(arn: string): (k: ArnKind)
    ensures (k.AssumedRole? || k == MalformedRoleArn) <==> Contains(arn, "assumed-role")
    ensures k == IamUser <==> !Contains(arn, "assumed-role") && Contains(arn, "user")
    ensures k == UnknownArn <==> !Contains(arn, "assumed-role") && !Contains(arn, "user")
    ensures k.AssumedRole? ==> '/' in arn && '/' !in k.roleName
    ensures k == MalformedRoleArn <==> Contains(arn, "assumed-role") && |Split(arn, '/')| < 3
  {
    if Contains(arn, "assumed-role") then
      var parts := Split(arn, '/');
      if |parts| >= 3 then
        assert IndexOf(arn, '/').Some?;
        AssumedRole(parts[1])
      else
        MalformedRoleArn
    else if Contains(arn, "user") then IamUser
    else UnknownArn
  }

  /** An assumed-role ARN in the documented shape
      `arn:aws:sts::<account>:assumed-role/<role>/<session>` yields its role
      name, whatever the session name holds. */
  lemma RoleNameOfSessionArn(account: string, role: string, session: string)
    requires '/' !in account && '/' !in role
    ensures ClassifyArn("arn:aws:sts::" + account + ":assumed-role/" + role + "/" + session) == AssumedRole(role)
  {
    var arn := "arn:aws:sts::" + account + ":assumed-role/" + role + "/" + session;
    SessionArnParts(account, role, session);
    SessionArnMentionsRole(account, role + "/" + session);
    assert arn == "arn:aws:sts::" + account + ":assumed-role/" + (role + "/" + session);
    RoleArnClassified(arn, role);
  }

  lemma SessionArnParts(account: string, role: string, session: string)
    requires '/' !in account && '/' !in role
    ensures var parts := Split("arn:aws:sts::" + account + ":assumed-role/" + role + "/" + session, '/');
      |parts| >= 3 && parts[1] == role
  {
    var head := "arn:aws:sts::" + account + ":assumed-role";
    var rest := role + "/" + session;
    var arn := "arn:aws:sts::" + account + ":assumed-role/" + role + "/" + session;
    assert ":assumed-role/" == ":assumed-role" + "/";
    assert arn == head + "/" + rest;
    assert '/' !in "arn:aws:sts::" && '/' !in ":assumed-role";
    assert '/' !in head;
    SplitAtFirst(head, '/', rest);
    SplitAtFirst(role, '/', session);
    assert Split(arn, '/') == [head, role] + Split(session, '/');
  }

  lemma SessionArnMentionsRole(account: string, rest: string)
    ensures Contains("arn:aws:sts::" + account + ":assumed-role/" + rest, "assumed-role")
  {
    var prefix := "arn:aws:sts::" + account + ":";
    assert ":assumed-role/" == ":" + "assumed-role" + "/";
    assert "arn:aws:sts::" + account + ":assumed-role/" + rest == prefix + "assumed-role" + ("/" + rest);
    InfixOfConcat(prefix, "assumed-role", "/" + rest);
  }

  lemma RoleArnClassified(arn: string, role: string)
    requires Contains(arn, "assumed-role")
    requires |Split(arn, '/')| >= 3 && Split(arn, '/')[1] == role
    ensures ClassifyArn(arn) == AssumedRole(role)
  {
  }

  /** The fields a branch fills, each only after the one before it. */
  predicate FilledInOrder(p: Permissions) {
    && (p.attachedRolePolicies.Some? ==> p.roleDetails.Some?)
    && (p.inlineRolePolicies.Some? ==> p.attachedRolePolicies.Some?)
    && (p.attachedUserPolicies.Some? ==> p.userDetails.Some?)
    && (p.inlineUserPolicies.Some? ==> p.attachedUserPolicies.Some?)
  }

  predicate NoRoleFields(p: Permissions) {
    p.roleDetails.None? && p.attachedRolePolicies.None? && p.inlineRolePolicies.None?
  }

  predicate NoUserFields(p: Permissions) {
    p.userDetails.None? && p.attachedUserPolicies.None? && p.inlineUserPolicies.None?
  }

  /** The role branch: role details, attached role policies, inline role
      policies, stopping at the first call that raises. */
  function RolePermissions(iam: Iam, role: string): (p: Permissions)
    ensures NoUserFields(p) && p.message.None? && FilledInOrder(p)
    ensures p.roleDetails.Some? <==> iam.getRole(role).Returned?
    ensures p.roleDetails.Some? ==> p.roleDetails.value == iam.getRole(role).value.GetOr(map[])
    ensures p.roleDetails.Some? ==> (p.attachedRolePolicies.Some? <==> iam.listAttachedRolePolicies(role).Returned?)
    ensures p.attachedRolePolicies.Some? ==> p.attachedRolePolicies.value == iam.listAttachedRolePolicies(role).value.GetOr([])
    ensures p.attachedRolePolicies.Some? ==> (p.inlineRolePolicies.Some? <==> iam.listRolePolicies(role).Returned?)
    ensures p.inlineRolePolicies.Some? ==> p.inlineRolePolicies.value == iam.listRolePolicies(role).value.GetOr([])
    ensures p.error.Some? <==> p.inlineRolePolicies.None?
    ensures iam.getRole(role).Raised? ==> p.error == Some(iam.getRole(role).error.message)
    ensures iam.getRole(role).Returned? && iam.listAttachedRolePolicies(role).Raised? ==>
      p.error == Some(iam.listAttachedRolePolicies(role).error.message)
    ensures iam.getRole(role).Returned? && iam.listAttachedRolePolicies(role).Returned? && iam.listRolePolicies(role).Raised? ==>
      p.error == Some(iam.listRolePolicies(role).error.message)
  {
    match iam.getRole(role)
    case Raised(e) => NoPermissions.(error := Some(e.message))
    case Returned(details) =>
      var p1 := NoPermissions.(roleDetails := Some(details.GetOr(map[])));
      match iam.listAttachedRolePolicies(role)
      case Raised(e) => p1.(error := Some(e.message))
      case Returned(attached) =>
        var p2 := p1.(attachedRolePolicies := Some(attached.GetOr([])));
        match iam.listRolePolicies(role)
        case Raised(e) => p2.(error := Some(e.message))
        case Returned(names) => p2.(inlineRolePolicies := Some(names.GetOr([])))
  }

  /** The user branch: the caller's user record, then its attached and
      inline policies, looked up by the record's `UserName` (which may be
      missing), stopping at the first call that raises. */
  function UserPermissions(iam: Iam): (p: Permissions)
    ensures NoRoleFields(p) && p.message.None? && FilledInOrder(p)
    ensures p.userDetails.Some? <==> iam.getUser.Returned?
    ensures p.userDetails.Some? ==> p.userDetails.value == iam.getUser.value.GetOr(map[])
    ensures p.userDetails.Some? ==>
      var name := Get(p.userDetails.value, "UserName");
      && (p.attachedUserPolicies.Some? <==> iam.listAttachedUserPolicies(name).Returned?)
      && (p.attachedUserPolicies.Some? ==> p.attachedUserPolicies.value == iam.listAttachedUserPolicies(name).value.GetOr([]))
      && (p.attachedUserPolicies.Some? ==> (p.inlineUserPolicies.Some? <==> iam.listUserPolicies(name).Returned?))
      && (p.inlineUserPolicies.Some? ==> p.inlineUserPolicies.value == iam.listUserPolicies(name).value.GetOr([]))
    ensures p.error.Some? <==> p.inlineUserPolicies.None?
    ensures iam.getUser.Raised? ==> p.error == Some(iam.getUser.error.message)
    ensures iam.getUser.Returned? ==>
      var name := Get(iam.getUser.value.GetOr(map[]), "UserName");
      && (iam.listAttachedUserPolicies(name).Raised? ==> p.error == Some(iam.listAttachedUserPolicies(name).error.message))
      && (iam.listAttachedUserPolicies(name).Returned? && iam.listUserPolicies(name).Raised? ==>
            p.error == Some(iam.listUserPolicies(name).error.message))
  {
    match iam.getUser
    case Raised(e) => NoPermissions.(error := Some(e.message))
    case Returned(response) =>
      var user := response.GetOr(map[]);
      var p1 := NoPermissions.(userDetails := Some(user));
      var name := Get(user, "UserName");
      match iam.listAttachedUserPolicies(name)
      case Raised(e) => p1.(error := Some(e.message))
      case Returned(attached) =>
        var p2 := p1.(attachedUserPolicies := Some(attached.GetOr([])));
        match iam.listUserPolicies(name)
        case Raised(e) => p2.(error := Some(e.message))
        case Returned(names) => p2.(inlineUserPolicies := Some(names.GetOr([])))
  }

  /** `get_permissions_info`: dispatch on the caller's ARN (empty when the
      identity has none). A malformed role ARN or an unknown ARN only gets a
      message; a failing lookup keeps what was read before it and adds the
      error. */
  function GetPermissionsInfo(identity: Details, iam: Iam): (p: Permissions)
    ensures FilledInOrder(p)
    ensures p.message.Some? ==> p.error.None? && NoRoleFields(p) && NoUserFields(p)
    ensures var k := ClassifyArn(Get(identity, "Arn").GetOr(""));
      && (k.AssumedRole? ==> p == RolePermissions(iam, k.roleName) && NoUserFields(p))
      && (k == IamUser ==> p == UserPermissions(iam) && NoRoleFields(p))
      && (k == MalformedRoleArn <==> p == NoPermissions.(message := Some(ParseFailedMessage)))
      && (k == UnknownArn <==> p == NoPermissions.(message := Some(UnknownArnMessage)))
      && (p.error.Some? <==> (k.AssumedRole? && p.inlineRolePolicies.None?) || (k == IamUser && p.inlineUserPolicies.None?))
  {
    var arn := Get(identity, "Arn").GetOr("");
    match ClassifyArn(arn)
    case AssumedRole(role) => RolePermissions(iam, role)
    case MalformedRoleArn => NoPermissions.(message := Some(ParseFailedMessage))
    case IamUser => UserPermissions(iam)
    case UnknownArn => NoPermissions.(message := Some(UnknownArnMessage))
  }

  /** The managed policies the page warns about. */
  const StrongNames: seq<string> := ["AdministratorAccess", "PowerUserAccess", "AmazonEC2FullAccess"]

  function PolicyName(policy: Details): Option<string> {
    Get(policy, "PolicyName")
  }

  /** Some policy in `ps` carries the name `n`. */
  predicate Named(ps: seq<Details>, n: string) {
    exists j | 0 <= j < |ps| :: PolicyName(ps[j]) == Some(n)
  }

  /** The strong policy names among `ps`, without repetition. */
  function StrongSet(ps: seq<Details>): set<string> {
    set n | n in StrongNames && Named(ps, n)
  }

  lemma NamedSnoc(ps: seq<Details>, i: nat, n: string)
    requires i < |ps|
    ensures Named(ps[..i + 1], n) <==> Named(ps[..i], n) || PolicyName(ps[i]) == Some(n)
  {
    var a, b := ps[..i], ps[..i + 1];
    if Named(b, n) {
      var j :| 0 <= j < |b| && PolicyName(b[j]) == Some(n);
      if j < i { assert a[j] == b[j]; }
    }
    if Named(a, n) {
      var j :| 0 <= j < |a| && PolicyName(a[j]) == Some(n);
      assert b[j] == a[j];
    }
    assert b[i] == ps[i];
  }

  /** The strong-privilege check in `index`: the strong names among the
      attached user and role policies, without duplicates; None when there
      are none. */
  method StrongPrivileges(p: Permissions) returns (r: Option<set<string>>)
    ensures var all := StrongSet(p.attachedUserPolicies.GetOr([])) + StrongSet(p.attachedRolePolicies.GetOr([]));
      && (r.None? <==> all == {})
      && (r.Some? ==> r.value == all)
  {
    var strong: seq<string> := [];
    var users := p.attachedUserPolicies.GetOr([]);
    var roles := p.attachedRolePolicies.GetOr([]);
    if p.attachedUserPolicies.Some? {
      for i := 0 to |users|
        invariant forall n :: n in strong <==> n in StrongNames && Named(users[..i], n)
      {
        var name := PolicyName(users[i]);
        if name.Some? && name.value in StrongNames {
          strong := strong + [name.value];
        }
        forall n ensures Named(users[..i + 1], n) <==> Named(users[..i], n) || PolicyName(users[i]) == Some(n) {
          NamedSnoc(users, i, n);
        }
      }
      assert users[..|users|] == users;
    }
    ghost var fromUsers := strong;
    if p.attachedRolePolicies.Some? {
      for i := 0 to |roles|
        invariant forall n :: n in strong <==> n in StrongNames && (Named(users, n) || Named(roles[..i], n))
      {
        var name := PolicyName(roles[i]);
        if name.Some? && name.value in StrongNames {
          strong := strong + [name.value];
        }
        forall n ensures Named(roles[..i + 1], n) <==> Named(roles[..i], n) || PolicyName(roles[i]) == Some(n) {
          NamedSnoc(roles, i, n);
        }
      }
      assert roles[..|roles|] == roles;
    }
    var found := set n | n in strong;
    if found == {} {
      r := None;
    } else {
      r := Some(found);
    }
  }

  /** The actions `simulate_policy` asks the simulator about. */
  const SimulatedActions: seq<string> := ["s3:ListBuckets", "ec2:DescribeInstances", "iam:ListUsers", "cloudwatch:ListMetrics"]

  function ActionOf(result: Details): string {
    Get(result, "EvalActionName").GetOr("unknown")
  }

  function DecisionOf(result: Details): string {
    Get(result, "EvalDecision").GetOr("unknown")
  }

  /** The loop in `simulate_policy`: each evaluation result maps its action
      name to its decision, `unknown` standing in for a missing field. */
  function Decisions(results: seq<Details>): (r: map<string, string>)
    ensures forall a :: a in r <==> exists i | 0 <= i < |results| :: ActionOf(results[i]) == a
  {
    if results == [] then map[]
    else
      var init := results[..|results| - 1];
      var last := results[|results| - 1];
      var r := Decisions(init);
      assert forall i | 0 <= i < |init| :: init[i] == results[i];
      r[ActionOf(last) := DecisionOf(last)]
  }

  /** `results[i]` is the last result for action `a`. */
  predicate LastFor(results: seq<Details>, a: string, i: int) {
    0 <= i < |results| && ActionOf(results[i]) == a
    && forall j | i < j < |results| :: ActionOf(results[j]) != a
  }

  /** When an action is evaluated more than once, the last evaluation's
      decision is the one kept. */
  lemma {:induction false} DecisionsKeepLast(results: seq<Details>, a: string, i: int)
    requires LastFor(results, a, i)
    ensures a in Decisions(results) && Decisions(results)[a] == DecisionOf(results[i])
    decreases |results|
  {
    var n := |results| - 1;
    var init := results[..n];
    assert Decisions(results) == Decisions(init)[ActionOf(results[n]) := DecisionOf(results[n])];
    if i < n {
      assert ActionOf(results[n]) != a;
      LastForInit(results, a, i);
      DecisionsKeepLast(init, a, i);
    }
  }

  lemma LastForInit(results: seq<Details>, a: string, i: int)
    requires LastFor(results, a, i) && i < |results| - 1
    ensures LastFor(results[..|results| - 1], a, i)
  {
    var init := results[..|results| - 1];
    assert init[i] == results[i];
    forall j | i < j < |init| ensures ActionOf(init[j]) != a {
      assert init[j] == results[j];
    }
  }

  /** `simulate_policy`: the decision per action, or a one-entry `error`
      dictionary when the simulator call raises. */
  function SimulatePolicy(iam: Iam, arn: Option<string>): (r: map<string, string>)
    ensures iam.simulatePrincipalPolicy(arn, SimulatedActions).Raised? ==>
      r == map["error" := iam.simulatePrincipalPolicy(arn, SimulatedActions).error.message]
    ensures iam.simulatePrincipalPolicy(arn, SimulatedActions).Returned? ==>
      var results := iam.simulatePrincipalPolicy(arn, SimulatedActions).value.GetOr([]);
      && (forall a :: a in r <==> exists i | 0 <= i < |results| :: ActionOf(results[i]) == a)
      && (forall a, i | LastFor(results, a, i) :: a in r && r[a] == DecisionOf(results[i]))
  {
    match iam.simulatePrincipalPolicy(arn, SimulatedActions)
    case Raised(e) => map["error" := e.message]
    case Returned(response) =>
      var results := response.GetOr([]);
      forall a, i | LastFor(results, a, i) ensures a in Decisions(results) && Decisions(results)[a] == DecisionOf(results[i]) {
        DecisionsKeepLast(results, a, i);
      }
      Decisions(results)
  }

  /** The text recorded for one read-only call. */
  function Outcome(a: Answer<()>): (t: string)
    ensures t == "Success" <==> a.Returned?
    ensures a.Raised? ==> t == "Error: " + a.error.message
  {
    match a
    case Returned(_) => "Success"
    case Raised(e) =>
      var t := "Error: " + e.message;
      assert t[0] != "Success"[0];
      t
  }

  /** The AWS account behind a set of credentials, as far as the page sees
      it. */
  datatype Account = Account(
    identity: Answer<Details>,
    iam: Iam,
    listBuckets: Answer<()>,
    describeInstances: Answer<()>)

  /** `simulate_read_operations`: one entry per attempted call. */
  function SimulateReadOperations(acct: Account): (r: map<string, string>)
    ensures r.Keys == {"s3:ListBuckets", "ec2:DescribeInstances", "iam:ListUsers"}
    ensures r["s3:ListBuckets"] == "Success" <==> acct.listBuckets.Returned?
    ensures r["ec2:DescribeInstances"] == "Success" <==> acct.describeInstances.Returned?
    ensures r["iam:ListUsers"] == "Success" <==> acct.iam.listUsers.Returned?
  {
    map["s3:ListBuckets" := Outcome(acct.listBuckets),
        "ec2:DescribeInstances" := Outcome(acct.describeInstances),
        "iam:ListUsers" := Outcome(acct.iam.listUsers)]
  }

  /** The submitted form; each field may be missing. */
  datatype Form = Form(accessKey: Option<string>, secretKey: Option<string>, sessionToken: Option<string>)

  /** What the boto3 session is created with. */
  datatype Credentials = Credentials(accessKey: Option<string>, secretKey: Option<string>, sessionToken: Option<string>, region: string)

  const Region := "us-east-1"

  /** The session: credentials in, account out. */
  type Connector = Credentials -> Account

  datatype Simulation = Simulation(policySimulator: map<string, string>, readOperations: map<string, string>)

  /** The `result` dictionary of the page. */
  datatype Report = Report(
    identity: Details,
    permissions: Permissions,
    strongPrivileges: Option<set<string>>,
    simulation: Option<Simulation>)

  /** What the template is rendered with. */
  datatype Page = Page(result: Option<Report>, error: Option<string>)

  function SessionCredentials(form: Form): Credentials {
    Credentials(form.accessKey, form.secretKey, if Truthy(form.sessionToken) then form.sessionToken else None, Region)
  }

  /** `index`. A GET shows the empty form. A POST asks STS for the caller;
      if that raises, the page shows only the error, prefixed by its kind.
      Otherwise the page shows the identity, the permissions, the strong
      policies, and the simulation exactly when the permissions carry a
      (non-empty) error. */
  method Index(isPost: bool, form: Form, connect: Connector) returns (page: Page)
    ensures !isPost ==> page == Page(None, None)
    ensures isPost ==>
      var acct := connect(SessionCredentials(form));
      && (acct.identity.Raised? && acct.identity.error.ClientError? ==>
            page == Page(None, Some("AWS API エラー: " + acct.identity.error.message)))
      && (acct.identity.Raised? && acct.identity.error.OtherError? ==>
            page == Page(None, Some("エラー: " + acct.identity.error.message)))
      && (acct.identity.Returned? <==> page.result.Some?)
      && (acct.identity.Returned? ==> page.error.None?)
    ensures page.result.Some? ==>
      var acct := connect(SessionCredentials(form));
      var report := page.result.value;
      var all := StrongSet(report.permissions.attachedUserPolicies.GetOr([])) + StrongSet(report.permissions.attachedRolePolicies.GetOr([]));
      && isPost
      && acct.identity == Returned(report.identity)
      && report.permissions == GetPermissionsInfo(report.identity, acct.iam)
      && (report.strongPrivileges.None? <==> all == {})
      && (report.strongPrivileges.Some? ==> report.strongPrivileges.value == all)
      && (report.simulation.Some? <==> Truthy(report.permissions.error))
      && (report.simulation.Some? ==> report.simulation.value == Simulation(SimulatePolicy(acct.iam, Get(report.identity, "Arn")), SimulateReadOperations(acct)))
  {
    if !isPost {
      return Page(None, None);
    }
    var acct := connect(SessionCredentials(form));
    match acct.identity {
      case Raised(ClientError(m)) =>
        page := Page(None, Some("AWS API エラー: " + m));
      case Raised(OtherError(m)) =>
        page := Page(None, Some("エラー: " + m));
      case Returned(identity) =>
        var permissions := GetPermissionsInfo(identity, acct.iam);
        var strong := StrongPrivileges(permissions);
        var simulation := None;
        if Truthy(permissions.error) {
          simulation := Some(Simulation(SimulatePolicy(acct.iam, Get(identity, "Arn")), SimulateReadOperations(acct)));
        }
        page := Page(Some(Report(identity, permissions, strong, simulation)), None);
    }
  }
}

=== FILE: discovery.dfy ===
/** The offline half of the Google API key checker: walking a Discovery
    document for its methods and building the probe URL for one method.
    `urljoin` is a parameter: only its behaviour on an empty argument is
    fixed here, reference resolution itself is left to the caller. */
module Discovery {
  import opened Wrappers
  import opened Text

  /** One entry of a `methods` map: its HTTP verb and its path template. */
  datatype ApiMethod = ApiMethod(httpMethod: string, path: string)

  /** One entry of a `resources` map, with its own methods and nested
      resources, both in document order (an absent map is an empty one). */
  datatype Resource = Resource(methods: seq<ApiMethod>, resources: seq<Resource>)

  /** The parts of a Discovery document the checker reads. */
  datatype DiscoveryDoc = DiscoveryDoc(
    rootUrl: Option<string>,
    servicePath: Option<string>,
    baseUrl: Option<string>,
    methods: seq<ApiMethod>,
    resources: seq<Resource>)

  /** `recurse_resources`: for each resource in order, its own methods and
      then those of its sub-resources. */
  function WalkResources(rs: seq<Resource>): seq<ApiMethod>
    decreases rs
  {
    if rs == [] then []
    else rs[0].methods + WalkResources(rs[0].resources) + WalkResources(rs[1..])
  }

  /** `extract_all_methods`: the top-level methods first, then the resources
      in pre-order. */
  function ExtractAllMethods(doc: DiscoveryDoc): (ms: seq<ApiMethod>)
    ensures |ms| >= |doc.methods| && ms[..|doc.methods|] == doc.methods
    ensures multiset(ms) == multiset(doc.methods) + ResourcesBag(doc.resources)
  {
    ResourcesBagOfWalk(doc.resources);
    doc.methods + WalkResources(doc.resources)
  }

  /** Every method slot of a resource forest, counted with multiplicity,
      independently of any visiting order. */
  ghost function ResourceBag(r: Resource): multiset<ApiMethod>
    decreases r
  {
    multiset(r.methods) + ResourcesBag(r.resources)
  }

  ghost function ResourcesBag(rs: seq<Resource>): multiset<ApiMethod>
    decreases rs
  {
    if rs == [] then multiset{} else ResourcesBag(rs[..|rs| - 1]) + ResourceBag(rs[|rs| - 1])
  }

  /** The walk visits every method slot exactly once. */
  lemma {:induction false} ResourcesBagOfWalk(rs: seq<Resource>)
    ensures multiset(WalkResources(rs)) == ResourcesBag(rs)
    decreases rs
  {
    if rs != [] {
      ResourcesBagOfWalk(rs[0].resources);
      ResourcesBagOfWalk(rs[1..]);
      ResourcesBagCons(rs);
    }
  }

  /** Splitting a forest at its first tree instead of its last. */
  lemma {:induction false} ResourcesBagCons(rs: seq<Resource>)
    requires rs != []
    ensures ResourcesBag(rs) == ResourceBag(rs[0]) + ResourcesBag(rs[1..])
    decreases |rs|
  {
    if |rs| > 1 {
      var init := rs[..|rs| - 1];
      ResourcesBagCons(init);
      assert init[0] == rs[0];
      assert init[1..] == rs[1..][..|rs[1..]| - 1];
      assert rs[1..][|rs[1..]| - 1] == rs[|rs| - 1];
    } else {
      assert rs[..0] == [];
      assert rs[1..] == [];
    }
  }

  /** The walk of a concatenation of forests is the concatenation of their
      walks. */
  lemma {:induction false} WalkAppend(a: seq<Resource>, b: seq<Resource>)
    ensures WalkResources(a + b) == WalkResources(a) + WalkResources(b)
    decreases |a|
  {
    if a != [] {
      assert (a + b)[0] == a[0];
      assert (a + b)[1..] == a[1..] + b;
      WalkAppend(a[1..], b);
    } else {
      assert a + b == b;
    }
  }

  /** The walk is a depth-first pre-order: for every resource of a forest,
      the methods of the resources before it come first, then its own
      methods, then those of its whole subtree, then those of the resources
      after it. */
  lemma {:induction false} WalkIsPreOrder(rs: seq<Resource>, i: int)
    requires 0 <= i < |rs|
    ensures WalkResources(rs)
      == WalkResources(rs[..i]) + rs[i].methods + WalkResources(rs[i].resources) + WalkResources(rs[i + 1..])
  {
    var r, before, after := rs[i], rs[..i], rs[i + 1..];
    assert rs == before + ([r] + after);
    assert WalkResources([r] + after) == r.methods + WalkResources(r.resources) + WalkResources(after) by {
      assert ([r] + after)[0] == r;
      assert ([r] + after)[1..] == after;
    }
    WalkAppend(before, [r] + after);
  }

  /** The text `re.sub(r"\{[^}]+\}", ...)` treats as a placeholder at the
      start of `s`: its length, when `s` starts with `{`, a later `}`
      exists and at least one character lies between them. */
  function PlaceholderAt(s: string): (n: Option<nat>)
    ensures n.Some? ==> 3 <= n.value <= |s| && s[0] == '{' && s[n.value - 1] == '}'
    ensures n.Some? ==> '}' !in s[1..n.value - 1]
    ensures n.None? && s != [] && s[0] == '{' ==> '}' !in s[1..] || s[1] == '}'
  {
    if s == [] || s[0] != '{' then None
    else match IndexOf(s[1..], '}')
      case None => None
      case Some(k) =>
        if k == 0 then None
        else
          assert s[1..k + 1] == s[1..][..k];
          Some(k + 2)
  }

  /** `re.sub(r"\{[^}]+\}", "test", path)`: scanning left to right, each
      brace-delimited run with at least one character and no `}` inside is
      replaced by `test`. */
  function SubstPlaceholders(s: string): (r: string)
    ensures '{' !in s ==> r == s
    decreases |s|
  {
    if s == [] then []
    else match PlaceholderAt(s)
      case Some(n) => "test" + SubstPlaceholders(s[n..])
      case None => [s[0]] + SubstPlaceholders(s[1..])
  }

  /** A path template as a sequence of literal characters and named
      placeholders. */
  datatype Piece = Lit(c: char) | Hole(name: string)

  /** The template written out: `{name}` for a placeholder. */
  function Render(ps: seq<Piece>): string {
    if ps == [] then []
    else match ps[0]
      case Lit(c) => [c] + Render(ps[1..])
      case Hole(name) => "{" + name + "}" + Render(ps[1..])
  }

  /** The template with every placeholder filled with `value`. */
  function Fill(ps: seq<Piece>, value: string): string {
    if ps == [] then []
    else match ps[0]
      case Lit(c) => [c] + Fill(ps[1..], value)
      case Hole(_) => value + Fill(ps[1..], value)
  }

  /** Templates without a literal `{` whose placeholder names are non-empty
      and free of `}`. A stray `}` is an ordinary character. */
  predicate WellFormed(ps: seq<Piece>) {
    forall i | 0 <= i < |ps| ::
      match ps[i]
      case Lit(c) => c != '{'
      case Hole(name) => name != [] && '}' !in name
  }

  /** Every placeholder is replaced by `test` and every other character is
      kept, in place. */
  lemma {:induction false} SubstFillsTemplate(ps: seq<Piece>)
    requires WellFormed(ps)
    ensures SubstPlaceholders(Render(ps)) == Fill(ps, "test")
    decreases |ps|
  {
    if ps != [] {
      var rest := ps[1..];
      assert WellFormed(rest) by {
        forall i | 0 <= i < |rest| ensures rest[i] == ps[i + 1] {}
      }
      SubstFillsTemplate(rest);
      var tail := Render(rest);
      match ps[0]
      case Lit(c) =>
        var s := [c] + tail;
        assert s[0] == c && s[1..] == tail;
      case Hole(name) =>
        assert ps[0] in ps;
        HoleIsPlaceholder(name, tail);
    }
  }

  /** A rendered placeholder is recognised as one, up to its closing brace. */
  lemma HoleIsPlaceholder(name: string, tail: string)
    requires name != [] && '}' !in name
    ensures var s := "{" + name + "}" + tail;
      PlaceholderAt(s) == Some(|name| + 2) && s[|name| + 2..] == tail
  {
    var s := "{" + name + "}" + tail;
    assert s[1..] == name + "}" + tail;
    assert (name + "}" + tail)[..|name|] == name;
    assert (name + "}" + tail)[|name|] == '}';
    assert IndexOf(s[1..], '}') == Some(|name|);
  }

  /** Python's `urljoin(base, url)`: an empty or missing `url` gives `base`,
      an empty `base` gives `url`; otherwise the parameter `join` resolves
      the reference. */
  function UrlJoin(join: (string, string) -> string, base: string, url: Option<string>): (r: Option<string>)
    ensures !Truthy(url) && base != "" ==> r == Some(base)
    ensures base == "" ==> r == url
    ensures Truthy(url) && base != "" ==> r == Some(join(base, url.value))
  {
    if base == "" then url
    else if !Truthy(url) then Some(base)
    else Some(join(base, url.value))
  }

  /** The base URL and service path `build_test_request_url` joins: rootUrl
      and servicePath when both are truthy, otherwise baseUrl (with whatever
      servicePath there is); None when that is not truthy either. */
  function ChooseBase(doc: DiscoveryDoc): (r: Option<(string, Option<string>)>)
    ensures r.None? <==> (!Truthy(doc.rootUrl) || !Truthy(doc.servicePath)) && !Truthy(doc.baseUrl)
    ensures r.Some? ==> r.value.0 != "" && r.value.1 == doc.servicePath
    ensures r.Some? && Truthy(doc.rootUrl) && Truthy(doc.servicePath) ==> r.value.0 == doc.rootUrl.value
    ensures r.Some? && !(Truthy(doc.rootUrl) && Truthy(doc.servicePath)) ==> r.value.0 == doc.baseUrl.value
  {
    if Truthy(doc.rootUrl) && Truthy(doc.servicePath) then Some((doc.rootUrl.value, doc.servicePath))
    else if Truthy(doc.baseUrl) then Some((doc.baseUrl.value, doc.servicePath))
    else None
  }

  /** Appends the `key` query parameter: after `&` when the URL already has
      a `?`, otherwise after `?`. */
  function AppendKey(url: string, apiKey: string): (r: string)
    ensures |r| == |url| + 1 + |"key=" + apiKey|
    ensures r[..|url|] == url
    ensures r[|url| + 1..] == "key=" + apiKey
    ensures r[|url|] == '&' <==> '?' in url
    ensures r[|url|] == '?' <==> '?' !in url
    ensures '?' in r
  {
    var r := if '?' in url then url + "&key=" + apiKey else url + "?key=" + apiKey;
    assert r[|url|] in "&?";
    r
  }

  /** `build_test_request_url`. None exactly when no base URL is available;
      otherwise the joined path with placeholders filled, followed by the
      key parameter. */
  function BuildTestRequestUrl(doc: DiscoveryDoc, m: ApiMethod, apiKey: string, join: (string, string) -> string): (r: Option<string>)
    ensures r.None? <==> (!Truthy(doc.rootUrl) || !Truthy(doc.servicePath)) && !Truthy(doc.baseUrl)
    ensures r.Some? ==> IsSuffixOf("key=" + apiKey, r.value) && '?' in r.value
    ensures r.Some? ==> exists c :: r.value == AppendKey(c, apiKey)
  {
    match ChooseBase(doc)
    case None => None
    case Some((base, servicePath)) =>
      var root := UrlJoin(join, base, servicePath).value;
      var combined := UrlJoin(join, root, Some(SubstPlaceholders(m.path))).value;
      var url := AppendKey(combined, apiKey);
      assert url[|url| - |"key=" + apiKey|..] == "key=" + apiKey;
      Some(url)
  }

  predicate IsSuffixOf(suffix: string, s: string) {
    |suffix| <= |s| && s[|s| - |suffix|..] == suffix
  }

  /** The probe URL of a method whose path is a well-formed template: the
      chosen base joined with the service path, joined with the template
      with every placeholder filled with `test`, then the key parameter. */
  lemma ProbeUrlOfTemplate(doc: DiscoveryDoc, m: ApiMethod, apiKey: string, join: (string, string) -> string, ps: seq<Piece>)
    requires WellFormed(ps) && m.path == Render(ps)
    ensures ChooseBase(doc).None? ==> BuildTestRequestUrl(doc, m, apiKey, join).None?
    ensures ChooseBase(doc).Some? ==>
      var base, servicePath := ChooseBase(doc).value.0, ChooseBase(doc).value.1;
      var root := UrlJoin(join, base, servicePath).value;
      BuildTestRequestUrl(doc, m, apiKey, join)
        == Some(AppendKey(UrlJoin(join, root, Some(Fill(ps, "test"))).value, apiKey))
  {
    SubstFillsTemplate(ps);
  }
}

=== FILE: feed_run.dfy ===
/** One run of `process_feeds`: read the settings, the keywords and the feed
    URLs; walk every entry of every feed in order, skipping links already in
    the ledger, matching keywords, building a message (translated when the
    text has no Japanese) and marking the link; then post the queued messages
    and stamp `last_run_time`. Fetching a feed, translating and posting to
    Slack are parameters: a feed is the sequence of entries the parser
    returned for a URL, a translation may fail, and a post is acknowledged,
    rejected (logged only) or raises. */
module FeedRun {
  import opened Wrappers
  import opened Text
  import opened FeedStore

  /** The character class of `contains_japanese`: hiragana and katakana
      (U+3040-U+30FF) and the CJK unified ideographs (U+4E00-U+9FFF). */
  predicate IsJapaneseChar(c: char) {
    ('\U{3040}' <= c <= '\U{30FF}') || ('\U{4E00}' <= c <= '\U{9FFF}')
  }

  /** `contains_japanese`: the regex search finds a character of the class. */
  function ContainsJapanese(text: string): (b: bool)
    ensures b <==> exists i | 0 <= i < |text| :: IsJapaneseChar(text[i])
  {
    if text == [] then false
    else if IsJapaneseChar(text[0]) then true
    else
      var b := ContainsJapanese(text[1..]);
      assert b <==> exists i | 1 <= i < |text| :: IsJapaneseChar(text[i]) by {
        if b {
          var i :| 0 <= i < |text[1..]| && IsJapaneseChar(text[1..][i]);
          assert text[i + 1] == text[1..][i];
        }
      }
      b
  }

  /** The search finds a match in a concatenation exactly when it finds one
      in either part. */
  lemma ContainsJapaneseConcat(a: string, b: string)
    ensures ContainsJapanese(a + b) <==> ContainsJapanese(a) || ContainsJapanese(b)
  {
    var s := a + b;
    if ContainsJapanese(s) {
      var i :| 0 <= i < |s| && IsJapaneseChar(s[i]);
      if i < |a| { assert s[i] == a[i]; } else { assert s[i] == b[i - |a|]; }
    }
    if ContainsJapanese(a) {
      var i :| 0 <= i < |a| && IsJapaneseChar(a[i]);
      assert s[i] == a[i];
    }
    if ContainsJapanese(b) {
      var i :| 0 <= i < |b| && IsJapaneseChar(b[i]);
      assert s[|a| + i] == b[i];
    }
  }

  /** The translation service: the Japanese text, or None when the call raised. */
  type Translator = string -> Option<string>

  /** `translate_to_japanese`: the translation, or the text itself when the
      translation failed. */
  function TranslateToJapanese(text: string, translate: Translator): (r: string)
    ensures translate(text).None? ==> r == text
    ensures translate(text).Some? ==> r == translate(text).value
  {
    translate(text).GetOr(text)
  }

  /** A parsed feed entry. A missing `link` makes `entry.link` raise; a
      missing title or summary reads as the empty string. */
  datatype Entry = Entry(link: Option<string>, title: Option<string>, summary: Option<string>)

  /** The text keywords are searched in. */
  function Content(title: string, summary: string): string {
    title + " " + summary
  }

  /** `a` is `b` with some elements left out, the rest in their order. */
  ghost predicate Subsequence<T>(a: seq<T>, b: seq<T>)
    decreases |b|
  {
    if b == [] then a == []
    else (a != [] && a[0] == b[0] && Subsequence(a[1..], b[1..])) || Subsequence(a, b[1..])
  }

  /** The keywords an entry matches: the non-empty ones that occur in the
      content (case-sensitively), in keyword order. */
  function MatchedKeywords(keywords: seq<string>, content: string): (m: seq<string>)
    ensures forall k :: k in m <==> k in keywords && k != "" && Contains(content, k)
    ensures Subsequence(m, keywords)
  {
    if keywords == [] then []
    else
      var rest := MatchedKeywords(keywords[1..], content);
      if keywords[0] != "" && Contains(content, keywords[0]) then
        assert ([keywords[0]] + rest)[1..] == rest;
        [keywords[0]] + rest
      else rest
  }

  /** Matching is case-sensitive: a lower-case keyword does not match the
      capitalised word in a title, while the capitalised keyword does. */
  lemma MatchingIsCaseSensitive(title: string, lower: string, upper: string)
    requires title == "Security fix" && lower == "security" && upper == "Security"
    ensures MatchedKeywords([lower], Content(title, "")) == []
    ensures MatchedKeywords([upper], Content(title, "")) == [upper]
  {
    var content := Content(title, "");
    assert content == "Security fix ";
    assert !Contains(content, lower) by {
      assert 's' !in content;
      AbsentFirstChar(content, lower);
    }
    assert Contains(content, upper) by {
      assert content[..8] == upper;
    }
    MatchedSingle(lower, content);
    MatchedSingle(upper, content);
  }

  /** A single keyword matches exactly when it is non-empty and occurs. */
  lemma MatchedSingle(k: string, content: string)
    ensures MatchedKeywords([k], content) == if k != "" && Contains(content, k) then [k] else []
  {
  }

  /** The summary that goes into a message: translated when the content has
      no Japanese character, unchanged otherwise. */
  function MessageSummary(title: string, summary: string, translate: Translator): (r: string)
    ensures ContainsJapanese(Content(title, summary)) ==> r == summary
    ensures !ContainsJapanese(Content(title, summary)) && translate(summary).Some? ==> r == translate(summary).value
    ensures translate(summary).None? ==> r == summary
  {
    if !ContainsJapanese(Content(title, summary)) then TranslateToJapanese(summary, translate)
    else summary
  }

  /** The labels of the four lines of a Slack message. */
  const TitleLabel := "*タイトル:* "
  const UrlLabel := "\n*URL:* "
  const SummaryLabel := "\n*概要:* "
  const KeywordsLabel := "\n*合致したキーワード:* "

  /** The Slack message text for a matched entry. */
  function FormatMessage(title: string, link: string, summary: string, matched: seq<string>): (m: string)
    ensures Contains(m, title) && Contains(m, link) && Contains(m, summary)
    ensures Contains(m, Join(", ", matched))
  {
    var kws := Join(", ", matched);
    var m := TitleLabel + title + UrlLabel + link + SummaryLabel + summary + KeywordsLabel + kws;
    LabelledFieldsOccur(TitleLabel, title, UrlLabel, link, SummaryLabel, summary, KeywordsLabel, kws);
    m
  }

  /** Each field of a labelled message occurs in it. */
  lemma LabelledFieldsOccur(p1: string, title: string, p2: string, link: string, p3: string, summary: string, p4: string, kws: string)
    ensures var m := p1 + title + p2 + link + p3 + summary + p4 + kws;
      Contains(m, title) && Contains(m, link) && Contains(m, summary) && Contains(m, kws)
  {
    var t1 := p1 + title;
    var t2 := t1 + p2;
    var t3 := t2 + link;
    var t4 := t3 + p3;
    var t5 := t4 + summary;
    var t6 := t5 + p4;
    var m := t6 + kws;
    ContainsSuffix(p1, title);
    ContainsExtend(t1, p2, title);
    ContainsExtend(t2, link, title);
    ContainsSuffix(t2, link);
    ContainsExtend(t3, p3, title);
    ContainsExtend(t3, p3, link);
    ContainsExtend(t4, summary, title);
    ContainsExtend(t4, summary, link);
    ContainsSuffix(t4, summary);
    ContainsExtend(t5, p4, title);
    ContainsExtend(t5, p4, link);
    ContainsExtend(t5, p4, summary);
    ContainsExtend(t6, kws, title);
    ContainsExtend(t6, kws, link);
    ContainsExtend(t6, kws, summary);
    ContainsSuffix(t6, kws);
  }

  /** The message for an entry whose link is not yet in the ledger: present
      exactly when some keyword matched. */
  function EntryMessage(keywords: seq<string>, link: string, e: Entry, translate: Translator): (r: Option<string>)
    ensures var title, summary := e.title.GetOr(""), e.summary.GetOr("");
      && (r.Some? <==> MatchedKeywords(keywords, Content(title, summary)) != [])
      && (r.Some? ==> Contains(r.value, link) && Contains(r.value, title))
      && (r.Some? ==> Contains(r.value, MessageSummary(title, summary, translate)))
  {
    var title, summary := e.title.GetOr(""), e.summary.GetOr("");
    var matched := MatchedKeywords(keywords, Content(title, summary));
    if matched == [] then None
    else Some(FormatMessage(title, link, MessageSummary(title, summary, translate), matched))
  }

  /** A message waiting to be posted, with the link it was built for. */
  datatype Queued = Queued(link: string, text: string)

  /** The state after walking the entries: the ledger, the queue of
      messages, and whether the walk reached the end (false when an entry
      without a link raised). */
  datatype Scan = Scan(sentUrls: set<string>, queue: seq<Queued>, complete: bool)

  /** Every link an entry sequence carries. */
  function Links(entries: seq<Entry>): set<string> {
    set i | 0 <= i < |entries| && entries[i].link.Some? :: entries[i].link.value
  }

  predicate AllLinked(entries: seq<Entry>) {
    forall i | 0 <= i < |entries| :: entries[i].link.Some?
  }

  /** The position of the first entry without a link, or the length when
      every entry has one. */
  function FirstUnlinked(entries: seq<Entry>): (k: nat)
    ensures k <= |entries|
    ensures k < |entries| ==> entries[k].link.None?
    ensures forall i | 0 <= i < k :: entries[i].link.Some?
  {
    if entries == [] || entries[0].link.None? then 0
    else
      var k := 1 + FirstUnlinked(entries[1..]);
      assert forall i | 1 <= i < k :: entries[i] == entries[1..][i - 1];
      k
  }

  /** The links of a non-empty entry sequence: the first entry's, then the
      rest's. */
  lemma LinksCons(entries: seq<Entry>)
    requires entries != []
    ensures Links(entries) == (if entries[0].link.Some? then {entries[0].link.value} else {}) + Links(entries[1..])
  {
    var rest := entries[1..];
    forall u | u in Links(entries) ensures u in (if entries[0].link.Some? then {entries[0].link.value} else {}) + Links(rest) {
      var i :| 0 <= i < |entries| && entries[i].link.Some? && entries[i].link.value == u;
      if i > 0 { assert rest[i - 1] == entries[i]; }
    }
    forall u | u in Links(rest) ensures u in Links(entries) {
      var i :| 0 <= i < |rest| && rest[i].link.Some? && rest[i].link.value == u;
      assert entries[i + 1] == rest[i];
    }
  }

  /** The per-entry loop of `process_feeds`, over the entries of all feeds
      in order. A link in the ledger is skipped; any other link is checked
      for keywords and then marked at once, matched or not. An entry
      without a link raises and stops the walk. */
  function ScanEntries(keywords: seq<string>, sent: set<string>, entries: seq<Entry>, translate: Translator): (r: Scan)
    ensures sent <= r.sentUrls <= sent + Links(entries)
    ensures r.complete <==> AllLinked(entries)
    ensures r.complete ==> r.sentUrls == sent + Links(entries)
    decreases |entries|
  {
    if entries == [] then Scan(sent, [], true)
    else
      var rest := entries[1..];
      LinksCons(entries);
      assert AllLinked(entries) <==> entries[0].link.Some? && AllLinked(rest) by {
        if entries[0].link.Some? && AllLinked(rest) {
          forall i | 0 <= i < |entries| ensures entries[i].link.Some? {
            if i > 0 { assert entries[i] == rest[i - 1]; }
          }
        }
      }
      match entries[0].link
      case None => Scan(sent, [], false)
      case Some(link) =>
        if link in sent then ScanEntries(keywords, sent, rest, translate)
        else
          var after := ScanEntries(keywords, sent + {link}, rest, translate);
          match EntryMessage(keywords, link, entries[0], translate)
          case None => after
          case Some(text) => after.(queue := [Queued(link, text)] + after.queue)
  }

  /** A walk stopped by an entry without a link keeps the marks made
      before it: the ledger gains exactly the links of the entries ahead of
      that entry. */
  lemma {:induction false} StoppedScanKeepsMarks(keywords: seq<string>, sent: set<string>, entries: seq<Entry>, translate: Translator)
    ensures var r := ScanEntries(keywords, sent, entries, translate);
      !r.complete ==> r.sentUrls == sent + Links(entries[..FirstUnlinked(entries)])
    decreases |entries|
  {
    if entries != [] {
      var rest := entries[1..];
      var prefix := entries[..FirstUnlinked(entries)];
      match entries[0].link
      case None =>
        assert prefix == [];
      case Some(link) =>
        StoppedScanKeepsMarks(keywords, sent + {link}, rest, translate);
        StoppedScanKeepsMarks(keywords, sent, rest, translate);
        LinksCons(prefix);
        assert prefix[1..] == rest[..FirstUnlinked(rest)];
        assert ScanEntries(keywords, sent, entries, translate).sentUrls
          == (if link in sent then ScanEntries(keywords, sent, rest, translate).sentUrls
              else ScanEntries(keywords, sent + {link}, rest, translate).sentUrls);
        assert ScanEntries(keywords, sent, entries, translate).complete
          == (if link in sent then ScanEntries(keywords, sent, rest, translate).complete
              else ScanEntries(keywords, sent + {link}, rest, translate).complete);
    }
  }

  /** The texts of the queue, in queue order. */
  function Texts(queue: seq<Queued>): (ts: seq<string>)
    ensures |ts| == |queue| && forall i | 0 <= i < |queue| :: ts[i] == queue[i].text
  {
    seq(|queue|, i requires 0 <= i < |queue| => queue[i].text)
  }

  /** One `chat.postMessage` call. */
  datatype Post = Post(token: Option<string>, channel: Option<string>, text: string)

  /** Slack's answer: `ok` true, `ok` false (logged, the run goes on), or
      an exception from the HTTP call or the JSON decoding. */
  datatype Ack = Acked | Rejected | Raised

  type Slack = Post -> Ack

  /** The posts made, and whether one of them raised. */
  datatype Delivery = Delivery(posts: seq<Post>, raised: bool)

  /** The delivery loop: post each text in order; a rejected post is only
      logged, a raising one ends the loop. */
  function Deliver(texts: seq<string>, token: Option<string>, channel: Option<string>, slack: Slack): (d: Delivery)
    ensures |d.posts| <= |texts|
    ensures forall i | 0 <= i < |d.posts| :: d.posts[i] == Post(token, channel, texts[i])
    ensures !d.raised ==> |d.posts| == |texts|
    ensures !d.raised ==> forall i | 0 <= i < |d.posts| :: slack(d.posts[i]) != Raised
    ensures d.raised ==> |d.posts| > 0 && slack(d.posts[|d.posts| - 1]) == Raised
    ensures d.raised ==> forall i | 0 <= i < |d.posts| - 1 :: slack(d.posts[i]) != Raised
  {
    if texts == [] then Delivery([], false)
    else
      var p := Post(token, channel, texts[0]);
      if slack(p) == Raised then Delivery([p], true)
      else
        var rest := Deliver(texts[1..], token, channel, slack);
        Delivery([p] + rest.posts, rest.raised)
  }

  /** A feed reader: the entries `feedparser.parse` yields for a URL (none
      when the fetch or the parse failed). */
  type Fetcher = string -> seq<Entry>

  /** The entries of all feeds, feed by feed in URL order. */
  function FetchAll(urls: seq<string>, fetch: Fetcher): seq<Entry> {
    if urls == [] then [] else fetch(urls[0]) + FetchAll(urls[1..], fetch)
  }

  datatype RunOutcome =
    | NotConfigured   // no settings row: logged, nothing else happens
    | Aborted         // an exception ended the run after the ledger writes made so far
    | Completed       // every message posted and `last_run_time` updated

  datatype RunResult = RunResult(store: Store, posts: seq<Post>, outcome: RunOutcome)

  /** The queue a configured run builds before it posts anything. */
  function RunScan(st: Store, fetch: Fetcher, translate: Translator): Scan {
    ScanEntries(st.keywords, st.sentUrls, FetchAll(st.rssUrls, fetch), translate)
  }

  /** `process_feeds`. */
  function ProcessFeeds(st: Store, fetch: Fetcher, translate: Translator, slack: Slack, now: string): (r: RunResult)
    ensures st.settings.None? <==> r.outcome == NotConfigured
    ensures st.settings.None? ==> r.store == st && r.posts == []
    ensures r.store.keywords == st.keywords && r.store.rssUrls == st.rssUrls
    ensures st.sentUrls <= r.store.sentUrls <= st.sentUrls + Links(FetchAll(st.rssUrls, fetch))
    ensures r.outcome == Completed ==> r.store.sentUrls == st.sentUrls + Links(FetchAll(st.rssUrls, fetch))
    ensures r.outcome == Completed ==> st.settings.Some? && r.store.settings == Some(st.settings.value.(lastRunTime := Some(now)))
    ensures r.outcome != Completed ==> r.store.settings == st.settings
    ensures st.settings.Some? && !AllLinked(FetchAll(st.rssUrls, fetch)) ==>
      var entries := FetchAll(st.rssUrls, fetch);
      && r.outcome == Aborted && r.posts == []
      && r.store.sentUrls == st.sentUrls + Links(entries[..FirstUnlinked(entries)])
    ensures st.settings.Some? && AllLinked(FetchAll(st.rssUrls, fetch)) ==>
      r.store.sentUrls == st.sentUrls + Links(FetchAll(st.rssUrls, fetch))
    ensures r.outcome == Completed ==>
      var queue := RunScan(st, fetch, translate).queue;
      && |r.posts| == |queue|
      && forall i | 0 <= i < |queue| :: r.posts[i].text == queue[i].text && slack(r.posts[i]) != Raised
    ensures st.settings.Some? && AllLinked(FetchAll(st.rssUrls, fetch)) ==>
      var s := st.settings.value;
      var queue := RunScan(st, fetch, translate).queue;
      && |r.posts| <= |queue|
      && (forall i | 0 <= i < |r.posts| :: r.posts[i] == Post(s.slackToken, s.slackChannel, queue[i].text))
      && (r.outcome == Aborted ==> |r.posts| > 0 && slack(r.posts[|r.posts| - 1]) == Raised)
      && (forall i | 0 <= i < |r.posts| - 1 :: slack(r.posts[i]) != Raised)
  {
    match GetSettings(st)
    case None => RunResult(st, [], NotConfigured)
    case Some(s) =>
      var scan := RunScan(st, fetch, translate);
      StoppedScanKeepsMarks(st.keywords, st.sentUrls, FetchAll(st.rssUrls, fetch), translate);
      var marked := st.(sentUrls := scan.sentUrls);
      if !scan.complete then RunResult(marked, [], Aborted)
      else
        var d := Deliver(Texts(scan.queue), s.slackToken, s.slackChannel, slack);
        if d.raised then RunResult(marked, d.posts, Aborted)
        else RunResult(UpdateLastRunTime(marked, now), d.posts, Completed)
  }

  /** Entry `i` is the first one carrying its link, and that link was not in
      the ledger when the run started. */
  ghost predicate FreshAt(entries: seq<Entry>, i: int, sent: set<string>) {
    && 0 <= i < |entries|
    && entries[i].link.Some?
    && entries[i].link.value !in sent
    && forall j | 0 <= j < i :: entries[j].link != entries[i].link
  }

  /** No link is queued twice. */
  ghost predicate DistinctLinks(queue: seq<Queued>) {
    forall i, j | 0 <= i < j < |queue| :: queue[i].link != queue[j].link
  }

  /** `q` is the message entry `e` yields. */
  ghost predicate QueuedFor(q: Queued, keywords: seq<string>, e: Entry, translate: Translator) {
    e.link == Some(q.link) && EntryMessage(keywords, q.link, e, translate) == Some(q.text)
  }

  /** The ledger the rest of the walk starts from after the first entry. */
  function SentAfterFirst(sent: set<string>, entries: seq<Entry>): set<string>
    requires entries != [] && entries[0].link.Some?
  {
    sent + {entries[0].link.value}
  }

  /** What the first entry puts in the queue. */
  function HeadQueue(keywords: seq<string>, sent: set<string>, entries: seq<Entry>, translate: Translator): seq<Queued>
    requires entries != [] && entries[0].link.Some?
  {
    var link := entries[0].link.value;
    if link in sent then []
    else match EntryMessage(keywords, link, entries[0], translate)
      case None => []
      case Some(text) => [Queued(link, text)]
  }

  /** One step of the walk, for an entry that has a link. */
  lemma ScanStep(keywords: seq<string>, sent: set<string>, entries: seq<Entry>, translate: Translator)
    requires entries != [] && entries[0].link.Some?
    ensures ScanEntries(keywords, sent, entries, translate).queue
      == HeadQueue(keywords, sent, entries, translate)
         + ScanEntries(keywords, SentAfterFirst(sent, entries), entries[1..], translate).queue
  {
    if entries[0].link.value in sent {
      assert SentAfterFirst(sent, entries) == sent;
    }
  }

  /** Every queued message belongs to an entry whose link was new to the
      ledger, and no link is queued twice: a link recorded before the run,
      or earlier in the same run, produces no message. */
  lemma {:induction false} QueueOnlyFresh(keywords: seq<string>, sent: set<string>, entries: seq<Entry>, translate: Translator)
    ensures var q := ScanEntries(keywords, sent, entries, translate).queue;
      && (forall k | 0 <= k < |q| :: q[k].link !in sent)
      && DistinctLinks(q)
    decreases |entries|
  {
    if entries != [] && entries[0].link.Some? {
      var link := entries[0].link.value;
      var sent' := SentAfterFirst(sent, entries);
      var q' := ScanEntries(keywords, sent', entries[1..], translate).queue;
      var head := HeadQueue(keywords, sent, entries, translate);
      assert (forall k | 0 <= k < |q'| :: q'[k].link !in sent') && DistinctLinks(q') by {
        QueueOnlyFresh(keywords, sent', entries[1..], translate);
      }
      ScanStep(keywords, sent, entries, translate);
      HeadIsFresh(keywords, sent, entries, translate);
      FreshQueueCons(head, q', sent, link);
    }
  }

  /** A message for a link new to the ledger, put in front of messages for
      links new to the ledger once that link is added, keeps every link new
      and distinct. */
  lemma FreshQueueCons(head: seq<Queued>, q': seq<Queued>, sent: set<string>, link: string)
    requires |head| <= 1 && (|head| == 1 ==> head[0].link == link && link !in sent)
    requires (forall k | 0 <= k < |q'| :: q'[k].link !in sent + {link}) && DistinctLinks(q')
    ensures var q := head + q';
      (forall k | 0 <= k < |q| :: q[k].link !in sent) && DistinctLinks(q)
  {
    var q := head + q';
    forall k | 0 <= k < |q| ensures q[k].link !in sent {
      if k >= |head| { assert q[k] == q'[k - |head|]; }
    }
    forall i, j | 0 <= i < j < |q| ensures q[i].link != q[j].link {
      assert q[j] == q'[j - |head|];
      if i >= |head| { assert q[i] == q'[i - |head|]; }
    }
  }

  /** Queue item `k` is the message of an entry that is the first to carry
      a link new to the ledger. */
  ghost predicate FromFreshAt(q: seq<Queued>, k: int, keywords: seq<string>, sent: set<string>, entries: seq<Entry>, translate: Translator)
    requires 0 <= k < |q|
  {
    exists i :: FreshAt(entries, i, sent) && QueuedFor(q[k], keywords, entries[i], translate)
  }

  ghost predicate AllFromFresh(q: seq<Queued>, keywords: seq<string>, sent: set<string>, entries: seq<Entry>, translate: Translator) {
    forall k | 0 <= k < |q| :: FromFreshAt(q, k, keywords, sent, entries, translate)
  }

  lemma {:induction false} QueueFromFreshEntries(keywords: seq<string>, sent: set<string>, entries: seq<Entry>, translate: Translator)
    ensures AllFromFresh(ScanEntries(keywords, sent, entries, translate).queue, keywords, sent, entries, translate)
    decreases |entries|
  {
    if entries == [] || entries[0].link.None? {
      assert ScanEntries(keywords, sent, entries, translate).queue == [];
    } else {
      var rest, sent' := entries[1..], SentAfterFirst(sent, entries);
      var q' := ScanEntries(keywords, sent', rest, translate).queue;
      var head := HeadQueue(keywords, sent, entries, translate);
      assert ScanEntries(keywords, sent, entries, translate).queue == head + q' by {
        ScanStep(keywords, sent, entries, translate);
      }
      assert AllFromFresh(q', keywords, sent', rest, translate) by {
        QueueFromFreshEntries(keywords, sent', rest, translate);
      }
      FromFreshCons(keywords, sent, entries, translate, q');
    }
  }

  lemma FromFreshCons(keywords: seq<string>, sent: set<string>, entries: seq<Entry>, translate: Translator, q': seq<Queued>)
    requires entries != [] && entries[0].link.Some?
    requires AllFromFresh(q', keywords, SentAfterFirst(sent, entries), entries[1..], translate)
    ensures AllFromFresh(HeadQueue(keywords, sent, entries, translate) + q', keywords, sent, entries, translate)
  {
    var rest, sent' := entries[1..], SentAfterFirst(sent, entries);
    var head := HeadQueue(keywords, sent, entries, translate);
    var q := head + q';
    HeadIsFresh(keywords, sent, entries, translate);
    forall k | 0 <= k < |q|
      ensures FromFreshAt(q, k, keywords, sent, entries, translate)
    {
      if k < |head| {
        assert FreshAt(entries, 0, sent) && QueuedFor(q[k], keywords, entries[0], translate);
      } else {
        assert q[k] == q'[k - |head|];
        assert FromFreshAt(q', k - |head|, keywords, sent', rest, translate);
        var i :| FreshAt(rest, i, sent') && QueuedFor(q'[k - |head|], keywords, rest[i], translate);
        FreshShift(sent, entries, i);
        assert rest[i] == entries[i + 1];
      }
    }
  }

  lemma HeadIsFresh(keywords: seq<string>, sent: set<string>, entries: seq<Entry>, translate: Translator)
    requires entries != [] && entries[0].link.Some?
    ensures var head := HeadQueue(keywords, sent, entries, translate);
      |head| <= 1 && (|head| == 1 ==> FreshAt(entries, 0, sent) && QueuedFor(head[0], keywords, entries[0], translate))
  {
  }

  /** An entry fresh for the rest of the walk is fresh for the whole walk. */
  lemma FreshShift(sent: set<string>, entries: seq<Entry>, i: int)
    requires entries != [] && entries[0].link.Some?
    requires FreshAt(entries[1..], i, SentAfterFirst(sent, entries))
    ensures FreshAt(entries, i + 1, sent)
  {
    var rest := entries[1..];
    assert entries[i + 1] == rest[i];
    forall j | 0 <= j < i + 1 ensures entries[j].link != entries[i + 1].link {
      if j > 0 { assert entries[j] == rest[j - 1]; }
    }
  }

  lemma AllLinkedRest(entries: seq<Entry>)
    requires entries != [] && AllLinked(entries)
    ensures AllLinked(entries[1..])
  {
    forall j | 0 <= j < |entries| - 1 ensures entries[1..][j].link.Some? { assert entries[1..][j] == entries[j + 1]; }
  }

  /** An entry after the first, fresh for the whole walk, is fresh for the
      rest of the walk. */
  lemma FreshUnshift(sent: set<string>, entries: seq<Entry>, i: int)
    requires entries != [] && entries[0].link.Some? && i > 0
    requires FreshAt(entries, i, sent)
    ensures FreshAt(entries[1..], i - 1, SentAfterFirst(sent, entries))
  {
    var rest := entries[1..];
    assert rest[i - 1] == entries[i];
    assert entries[0].link != entries[i].link;
    forall j | 0 <= j < i - 1 ensures rest[j].link != rest[i - 1].link { assert rest[j] == entries[j + 1]; }
  }

  /** Some message of `q` is the one entry `e` yields. */
  ghost predicate QueuedSomewhere(q: seq<Queued>, keywords: seq<string>, e: Entry, translate: Translator) {
    exists k :: 0 <= k < |q| && QueuedFor(q[k], keywords, e, translate)
  }

  lemma QueuedInSuffix(head: seq<Queued>, q': seq<Queued>, keywords: seq<string>, e: Entry, translate: Translator)
    requires QueuedSomewhere(q', keywords, e, translate)
    ensures QueuedSomewhere(head + q', keywords, e, translate)
  {
    var k :| 0 <= k < |q'| && QueuedFor(q'[k], keywords, e, translate);
    assert (head + q')[|head| + k] == q'[k];
  }

  /** In a run that reaches the end of the entries, every entry that is the
      first to carry a link new to the ledger, and that matches a keyword,
      has its message queued. */
  lemma {:induction false} QueueHasEveryMatch(keywords: seq<string>, sent: set<string>, entries: seq<Entry>, translate: Translator, i: int)
    requires AllLinked(entries)
    requires FreshAt(entries, i, sent)
    requires EntryMessage(keywords, entries[i].link.value, entries[i], translate).Some?
    ensures QueuedSomewhere(ScanEntries(keywords, sent, entries, translate).queue, keywords, entries[i], translate)
    decreases |entries|
  {
    var e := entries[i];
    var rest := entries[1..];
    var head := HeadQueue(keywords, sent, entries, translate);
    var sent' := SentAfterFirst(sent, entries);
    var q' := ScanEntries(keywords, sent', rest, translate).queue;
    assert ScanEntries(keywords, sent, entries, translate).queue == head + q' by {
      ScanStep(keywords, sent, entries, translate);
    }
    if i == 0 {
      assert QueuedFor((head + q')[0], keywords, e, translate);
    } else {
      assert rest[i - 1] == e;
      AllLinkedRest(entries);
      FreshUnshift(sent, entries, i);
      assert QueuedSomewhere(q', keywords, e, translate) by { QueueHasEveryMatch(keywords, sent', rest, translate, i - 1); }
      assert QueuedSomewhere(head + q', keywords, e, translate) by {
        QueuedInSuffix(head, q', keywords, e, translate);
      }
    }
  }

  /** When every link of the entries is already in the ledger, the walk
      queues nothing and adds nothing. */
  lemma {:induction false} ScanOfSentEntries(keywords: seq<string>, sent: set<string>, entries: seq<Entry>, translate: Translator)
    requires AllLinked(entries) && Links(entries) <= sent
    ensures ScanEntries(keywords, sent, entries, translate) == Scan(sent, [], true)
    decreases |entries|
  {
    if entries != [] {
      var rest := entries[1..];
      assert entries[0].link.value in Links(entries);
      assert AllLinked(rest) by {
        forall j | 0 <= j < |rest| ensures rest[j].link.Some? { assert rest[j] == entries[j + 1]; }
      }
      assert Links(rest) <= sent by {
        forall u | u in Links(rest) ensures u in sent {
          var j :| 0 <= j < |rest| && rest[j].link.Some? && rest[j].link.value == u;
          assert entries[j + 1] == rest[j];
          assert u in Links(entries);
        }
      }
      ScanOfSentEntries(keywords, sent, rest, translate);
    }
  }

  /** Running again over the same feeds after a completed run posts nothing
      and leaves the ledger as it was: every link of those feeds is already
      recorded. */
  lemma RerunIsQuiet(st: Store, fetch: Fetcher, translate: Translator, slack: Slack, now1: string, now2: string)
    requires ProcessFeeds(st, fetch, translate, slack, now1).outcome == Completed
    ensures var first := ProcessFeeds(st, fetch, translate, slack, now1);
      var second := ProcessFeeds(first.store, fetch, translate, slack, now2);
      && second.outcome == Completed
      && second.posts == []
      && second.store.sentUrls == first.store.sentUrls
  {
    var first := ProcessFeeds(st, fetch, translate, slack, now1);
    var entries := FetchAll(st.rssUrls, fetch);
    assert AllLinked(entries);
    ScanOfSentEntries(st.keywords, first.store.sentUrls, entries, translate);
  }

  /** Every message of `q` is for a link in `ledger`. */
  ghost predicate LinksIn(q: seq<Queued>, ledger: set<string>) {
    forall k | 0 <= k < |q| :: q[k].link in ledger
  }

  /** The ledger after the walk does not depend on whether the first link
      was already in it. */
  lemma ScanLedgerStep(keywords: seq<string>, sent: set<string>, entries: seq<Entry>, translate: Translator)
    requires entries != [] && entries[0].link.Some?
    ensures ScanEntries(keywords, sent, entries, translate).sentUrls
      == ScanEntries(keywords, SentAfterFirst(sent, entries), entries[1..], translate).sentUrls
  {
    if entries[0].link.value in sent {
      assert SentAfterFirst(sent, entries) == sent;
    }
  }

  lemma LinksInCons(head: seq<Queued>, q': seq<Queued>, ledger: set<string>)
    requires |head| <= 1 && (|head| == 1 ==> head[0].link in ledger)
    requires LinksIn(q', ledger)
    ensures LinksIn(head + q', ledger)
  {
    var q := head + q';
    forall k | 0 <= k < |q| ensures q[k].link in ledger {
      if k >= |head| { assert q[k] == q'[k - |head|]; }
    }
  }

  /** Every queued message's link is in the ledger the walk leaves behind. */
  lemma {:induction false} QueuedAreMarked(keywords: seq<string>, sent: set<string>, entries: seq<Entry>, translate: Translator)
    ensures var r := ScanEntries(keywords, sent, entries, translate); LinksIn(r.queue, r.sentUrls)
    decreases |entries|
  {
    if entries != [] && entries[0].link.Some? {
      var sent' := SentAfterFirst(sent, entries);
      var after := ScanEntries(keywords, sent', entries[1..], translate);
      assert LinksIn(after.queue, after.sentUrls) by {
        QueuedAreMarked(keywords, sent', entries[1..], translate);
      }
      ScanLedgerStep(keywords, sent, entries, translate);
      ScanStep(keywords, sent, entries, translate);
      HeadIsFresh(keywords, sent, entries, translate);
      LinksInCons(HeadQueue(keywords, sent, entries, translate), after.queue, after.sentUrls);
    }
  }

  /** The ledger is written while walking, before anything is posted. So
      when a post raises, the messages queued after it are lost: their links
      are already recorded, and no later run, whatever its feeds return,
      queues a message for them again. */
  lemma UnpostedMessagesAreDropped(st: Store, fetch: Fetcher, translate: Translator, slack: Slack, now: string, later: Fetcher)
    requires st.settings.Some?
    ensures var q := RunScan(st, fetch, translate).queue;
      var r := ProcessFeeds(st, fetch, translate, slack, now);
      var q2 := RunScan(r.store, later, translate).queue;
      forall k, j | |r.posts| <= k < |q| && 0 <= j < |q2| :: q[k].link in r.store.sentUrls && q2[j].link != q[k].link
  {
    var scan := RunScan(st, fetch, translate);
    var r := ProcessFeeds(st, fetch, translate, slack, now);
    assert LinksIn(scan.queue, r.store.sentUrls) by {
      QueuedAreMarked(st.keywords, st.sentUrls, FetchAll(st.rssUrls, fetch), translate);
      assert r.store.sentUrls == scan.sentUrls;
    }
    var q2 := RunScan(r.store, later, translate).queue;
    assert forall j | 0 <= j < |q2| :: q2[j].link !in r.store.sentUrls by {
      QueueOnlyFresh(r.store.keywords, r.store.sentUrls, FetchAll(r.store.rssUrls, later), translate);
    }
  }

  /** A summary that already holds a Japanese character is never
      translated, whatever the translator would answer. */
  lemma JapaneseSummaryKept(title: string, summary: string, translate: Translator)
    requires ContainsJapanese(summary)
    ensures MessageSummary(title, summary, translate) == summary
  {
    ContainsJapaneseConcat(title + " ", summary);
  }

  /** When neither the title nor the summary holds a Japanese character,
      the summary is replaced by its translation whenever one is returned. */
  lemma ForeignSummaryTranslated(title: string, summary: string, translate: Translator)
    requires !ContainsJapanese(title) && !ContainsJapanese(summary)
    requires translate(summary).Some?
    ensures MessageSummary(title, summary, translate) == translate(summary).value
  {
    ContainsJapaneseConcat(title, " ");
    ContainsJapaneseConcat(title + " ", summary);
  }
}

=== FILE: feed_store.dfy ===
/** The persistent state of the RSS-to-Slack bot and the administrative
    operations on it: the settings row, the keyword and feed-URL tables, the
    ledger of URLs already handled, and the scheduler job list that
    `set_settings` keeps in step with the configured interval. The SQLite
    tables become a record of sequences and a set; each operation returns the
    new state. */
module FeedStore {
  import opened Wrappers
  import opened Text

  /** The row with id 1 of the settings table. The token and the channel are
      whatever the form sent, so either may be NULL. */
  datatype Settings = Settings(
    slackToken: Option<string>,
    slackChannel: Option<string>,
    scheduleInterval: int,
    lastRunTime: Option<string>)

  /** The four tables. `keywords` and `rssUrls` are kept in insertion order,
      which is the order `SELECT` returns them in; `sentUrls` is the ledger. */
  datatype Store = Store(
    settings: Option<Settings>,
    keywords: seq<string>,
    rssUrls: seq<string>,
    sentUrls: set<string>)

  /** The interval used when no usable interval is stored. */
  const DefaultInterval := 30

  /** No value occurs twice: the UNIQUE constraint of a column. */
  predicate Unique(xs: seq<string>) {
    forall i, j | 0 <= i < j < |xs| :: xs[i] != xs[j]
  }

  predicate Valid(st: Store) {
    Unique(st.keywords) && Unique(st.rssUrls)
  }

  /** What a successful INSERT into a UNIQUE column does to it, and what a
      rejected one (`IntegrityError`, reported as false) leaves. */
  ghost predicate InsertedUnique(before: seq<string>, after: seq<string>, x: string, ok: bool) {
    && (ok <==> x !in before)
    && (!ok ==> after == before)
    && (ok ==> |after| == |before| + 1 && after[..|before|] == before && x in after)
    && (forall y :: y in after <==> y in before || (ok && y == x))
  }

  /** `add_keyword`: insert into the keywords table, false on a duplicate. */
  function AddKeyword(st: Store, keyword: string): (r: (bool, Store))
    ensures InsertedUnique(st.keywords, r.1.keywords, keyword, r.0)
    ensures Valid(st) ==> Valid(r.1)
    ensures r.1.settings == st.settings && r.1.rssUrls == st.rssUrls && r.1.sentUrls == st.sentUrls
  {
    if keyword in st.keywords then (false, st)
    else (true, st.(keywords := st.keywords + [keyword]))
  }

  /** `add_rss_url`: insert into the rss_urls table, false on a duplicate. */
  function AddRssUrl(st: Store, url: string): (r: (bool, Store))
    ensures InsertedUnique(st.rssUrls, r.1.rssUrls, url, r.0)
    ensures Valid(st) ==> Valid(r.1)
    ensures r.1.settings == st.settings && r.1.keywords == st.keywords && r.1.sentUrls == st.sentUrls
  {
    if url in st.rssUrls then (false, st)
    else (true, st.(rssUrls := st.rssUrls + [url]))
  }

  /** `DELETE FROM t WHERE col = x`: every row holding `x` goes, the others
      stay in their order. */
  function RemoveValue(xs: seq<string>, x: string): (r: seq<string>)
    ensures forall y :: y in r <==> y in xs && y != x
    ensures |r| <= |xs|
    ensures x !in xs ==> r == xs
    ensures Unique(xs) ==> Unique(r)
    ensures Unique(xs) && x in xs ==> |r| == |xs| - 1
  {
    if xs == [] then []
    else if xs[0] == x then RemoveValue(xs[1..], x)
    else
      var rest := RemoveValue(xs[1..], x);
      if Unique(xs) then UniqueCons(xs[0], rest); [xs[0]] + rest
      else [xs[0]] + rest
  }

  /** With unique rows, the one row holding `x` goes and the rows before
      and after it stay in their order. */
  lemma {:induction false} RemoveValueKeepsOrder(xs: seq<string>, x: string)
    ensures Unique(xs) && x in xs ==> RemovedAt(xs, x, RemoveValue(xs, x))
  {
    if Unique(xs) && x in xs {
      var k :| 0 <= k < |xs| && xs[k] == x;
      assert x !in xs[..k] && x !in xs[k + 1..] by {
        forall j | 0 <= j < |xs| && j != k ensures xs[j] != x {
          if j < k { assert xs[j] != xs[k]; } else { assert xs[k] != xs[j]; }
        }
      }
      RemoveOnlyOccurrence(xs, x, k);
    }
  }

  /** Removing a value that occurs only at position `k`. */
  lemma {:induction false} RemoveOnlyOccurrence(xs: seq<string>, x: string, k: nat)
    requires k < |xs| && xs[k] == x && x !in xs[..k] && x !in xs[k + 1..]
    ensures RemoveValue(xs, x) == xs[..k] + xs[k + 1..]
  {
    if k == 0 {
      assert xs[1..] == xs[k + 1..];
      assert xs[..0] + xs[1..] == xs[1..];
    } else {
      var tail := xs[1..];
      assert xs[0] == xs[..k][0];
      assert tail[..k - 1] == xs[1..k];
      assert tail[k..] == xs[k + 1..];
      RemoveOnlyOccurrence(tail, x, k - 1);
      assert xs[..k] == [xs[0]] + tail[..k - 1];
    }
  }

  /** `r` is `xs` with the one row at some position holding `x` taken out,
      the rows before and after it kept in their order. */
  ghost predicate RemovedAt(xs: seq<string>, x: string, r: seq<string>) {
    exists k | 0 <= k < |xs| && xs[k] == x :: r == xs[..k] + xs[k + 1..]
  }

  lemma UniqueTail(xs: seq<string>)
    requires xs != [] && Unique(xs)
    ensures Unique(xs[1..])
  {
    forall i, j | 0 <= i < j < |xs[1..]| ensures xs[1..][i] != xs[1..][j] {
      assert xs[i + 1] != xs[j + 1];
    }
  }

  lemma UniqueCons(a: string, rest: seq<string>)
    requires Unique(rest) && a !in rest
    ensures Unique([a] + rest)
  {
    var s := [a] + rest;
    forall i, j | 0 <= i < j < |s| ensures s[i] != s[j] {
      assert s[j] == rest[j - 1];
      if i > 0 { assert s[i] == rest[i - 1]; }
    }
  }

  /** `delete_keyword`. */
  function DeleteKeyword(st: Store, keyword: string): (r: Store)
    ensures keyword !in r.keywords
    ensures forall k :: k in r.keywords <==> k in st.keywords && k != keyword
    ensures Valid(st) ==> Valid(r)
    ensures keyword !in st.keywords ==> r.keywords == st.keywords
    ensures Valid(st) && keyword in st.keywords ==> RemovedAt(st.keywords, keyword, r.keywords)
    ensures r.settings == st.settings && r.rssUrls == st.rssUrls && r.sentUrls == st.sentUrls
  {
    RemoveValueKeepsOrder(st.keywords, keyword);
    st.(keywords := RemoveValue(st.keywords, keyword))
  }

  /** `delete_rss_url`. */
  function DeleteRssUrl(st: Store, url: string): (r: Store)
    ensures url !in r.rssUrls
    ensures forall u :: u in r.rssUrls <==> u in st.rssUrls && u != url
    ensures Valid(st) ==> Valid(r)
    ensures url !in st.rssUrls ==> r.rssUrls == st.rssUrls
    ensures Valid(st) && url in st.rssUrls ==> RemovedAt(st.rssUrls, url, r.rssUrls)
    ensures r.settings == st.settings && r.keywords == st.keywords && r.sentUrls == st.sentUrls
  {
    RemoveValueKeepsOrder(st.rssUrls, url);
    st.(rssUrls := RemoveValue(st.rssUrls, url))
  }

  /** `is_url_sent`. */
  predicate IsUrlSent(st: Store, url: string) {
    url in st.sentUrls
  }

  /** `mark_url_as_sent`: INSERT OR IGNORE into the ledger. Marking a URL
      that is already there changes nothing, so marking is idempotent; no
      other URL enters or leaves the ledger. */
  function MarkUrlAsSent(st: Store, url: string): (r: Store)
    ensures IsUrlSent(r, url)
    ensures forall u :: IsUrlSent(r, u) <==> IsUrlSent(st, u) || u == url
    ensures IsUrlSent(st, url) ==> r == st
    ensures r.settings == st.settings && r.keywords == st.keywords && r.rssUrls == st.rssUrls
  {
    st.(sentUrls := st.sentUrls + {url})
  }

  /** `get_settings`: the settings row, if there is one. */
  function GetSettings(st: Store): Option<Settings> {
    st.settings
  }

  /** `update_last_run_time`: UPDATE of row 1, which does nothing when the
      row is absent. Only the timestamp changes. */
  function UpdateLastRunTime(st: Store, now: string): (r: Store)
    ensures st.settings.None? ==> r == st
    ensures st.settings.Some? ==> r.settings.Some? && r.settings.value.lastRunTime == Some(now)
    ensures st.settings.Some? ==> r.settings.value.(lastRunTime := st.settings.value.lastRunTime) == st.settings.value
    ensures r.keywords == st.keywords && r.rssUrls == st.rssUrls && r.sentUrls == st.sentUrls
  {
    match st.settings
    case None => st
    case Some(s) => st.(settings := Some(s.(lastRunTime := Some(now))))
  }

  /** A scheduled `process_feeds` job with an interval trigger. */
  datatype Job = Job(intervalMinutes: int)

  /** The whole process: the database and the background scheduler. */
  datatype Bot = Bot(store: Store, jobs: seq<Job>)

  /** `update_scheduler`: remove every job, then add one. Whatever was
      scheduled before, exactly one job remains and it runs at the new
      interval. */
  function UpdateScheduler(jobs: seq<Job>, intervalMinutes: int): (r: seq<Job>)
    ensures |r| == 1 && r[0].intervalMinutes == intervalMinutes
  {
    [Job(intervalMinutes)]
  }

  /** After any settings change the scheduler holds exactly one job, and it
      runs at the interval now stored. */
  predicate SchedulerInSync(bot: Bot) {
    && |bot.jobs| == 1
    && bot.store.settings.Some?
    && bot.jobs[0].intervalMinutes == bot.store.settings.value.scheduleInterval
  }

  /** `set_settings`: INSERT OR REPLACE of row 1, then `update_scheduler`.
      REPLACE deletes the old row, so the new row's `last_run_time` is NULL
      again; the keyword, URL and ledger tables are untouched. */
  function SetSettings(bot: Bot, token: Option<string>, channel: Option<string>, intervalMinutes: int): (r: Bot)
    ensures r.store.settings == Some(Settings(token, channel, intervalMinutes, None))
    ensures r.store.keywords == bot.store.keywords && r.store.rssUrls == bot.store.rssUrls
    ensures r.store.sentUrls == bot.store.sentUrls
    ensures SchedulerInSync(r)
  {
    var st := bot.store.(settings := Some(Settings(token, channel, intervalMinutes, None)));
    Bot(st, UpdateScheduler(bot.jobs, intervalMinutes))
  }

  /** The interval the scheduler starts with: the stored one when a settings
      row exists and its interval is truthy (non-zero), the default otherwise.
      It is never zero. */
  function InitialInterval(settings: Option<Settings>): (m: int)
    ensures m != 0
    ensures settings.Some? && settings.value.scheduleInterval != 0 ==> m == settings.value.scheduleInterval
    ensures settings.None? || settings.value.scheduleInterval == 0 ==> m == DefaultInterval
  {
    if settings.Some? && settings.value.scheduleInterval != 0 then settings.value.scheduleInterval
    else DefaultInterval
  }

  /** Process start: open the store and schedule the one job. */
  function Startup(st: Store): (r: Bot)
    ensures r.store == st
    ensures |r.jobs| == 1 && r.jobs[0].intervalMinutes == InitialInterval(st.settings)
  {
    Bot(st, UpdateScheduler([], InitialInterval(st.settings)))
  }

  /** The replies of the add routes. */
  datatype Reply =
    | Redirected          // the value was stored; back to the index page
    | DuplicateRejected   // the insert hit the UNIQUE constraint
    | InvalidInput        // nothing left after stripping
    | ServerError         // the form field was missing: `None.strip()` raises

  /** The add-keyword and add-URL routes: strip the form value, reject it when
      nothing is left, otherwise insert. Only a successful insert changes the
      store; an all-whitespace value is rejected without looking at it. */
  function AddRoute(st: Store, field: Option<string>, insert: (Store, string) -> (bool, Store)): (r: (Reply, Store))
    ensures field.None? <==> r.0 == ServerError
    ensures field.Some? ==> (r.0 == InvalidInput <==> AllSpace(field.value))
    ensures r.0 != Redirected ==> r.1 == st
    ensures field.Some? && !AllSpace(field.value) ==>
      var stored := Strip(field.value);
      stored != [] && !IsSpace(stored[0]) && !IsSpace(stored[|stored| - 1]) &&
      (r.0 == Redirected <==> insert(st, stored).0) &&
      (r.0 == Redirected ==> r.1 == insert(st, stored).1)
  {
    match field
    case None => (ServerError, st)
    case Some(raw) =>
      var value := Strip(raw);
      if value == [] then (InvalidInput, st)
      else
        var (ok, st') := insert(st, value);
        if ok then (Redirected, st') else (DuplicateRejected, st)
  }

  /** `add_keyword_route`: a non-blank keyword is stored stripped, once. */
  function AddKeywordRoute(st: Store, field: Option<string>): (r: (Reply, Store))
    ensures field.Some? ==> (r.0 == InvalidInput <==> AllSpace(field.value))
    ensures r.0 != Redirected ==> r.1 == st
    ensures r.0 == DuplicateRejected <==> field.Some? && !AllSpace(field.value) && Strip(field.value) in st.keywords
    ensures r.0 == Redirected ==> field.Some? && r.1.keywords == st.keywords + [Strip(field.value)]
    ensures forall k | k in r.1.keywords :: k in st.keywords || (k != [] && field.Some? && k == Strip(field.value))
    ensures r.1.settings == st.settings && r.1.rssUrls == st.rssUrls && r.1.sentUrls == st.sentUrls
  {
    AddRoute(st, field, AddKeyword)
  }

  /** `add_rss_url_route`: a non-blank URL is stored stripped, once. */
  function AddRssUrlRoute(st: Store, field: Option<string>): (r: (Reply, Store))
    ensures field.Some? ==> (r.0 == InvalidInput <==> AllSpace(field.value))
    ensures r.0 != Redirected ==> r.1 == st
    ensures r.0 == DuplicateRejected <==> field.Some? && !AllSpace(field.value) && Strip(field.value) in st.rssUrls
    ensures r.0 == Redirected ==> field.Some? && r.1.rssUrls == st.rssUrls + [Strip(field.value)]
    ensures forall u | u in r.1.rssUrls :: u in st.rssUrls || (u != [] && field.Some? && u == Strip(field.value))
    ensures r.1.settings == st.settings && r.1.keywords == st.keywords && r.1.sentUrls == st.sentUrls
  {
    AddRoute(st, field, AddRssUrl)
  }

  /** The delete routes pass the raw form value; a missing field becomes
      `WHERE col = NULL`, which matches no row. */
  function DeleteKeywordRoute(st: Store, field: Option<string>): (r: Store)
    ensures field.None? ==> r == st
    ensures field.Some? ==> field.value !in r.keywords
    ensures forall k :: k in r.keywords <==> k in st.keywords && Some(k) != field
    ensures field.Some? && Valid(st) && field.value in st.keywords ==> RemovedAt(st.keywords, field.value, r.keywords)
    ensures r.settings == st.settings && r.rssUrls == st.rssUrls && r.sentUrls == st.sentUrls
  {
    match field
    case None => st
    case Some(k) => DeleteKeyword(st, k)
  }

  function DeleteRssUrlRoute(st: Store, field: Option<string>): (r: Store)
    ensures field.None? ==> r == st
    ensures field.Some? ==> field.value !in r.rssUrls
    ensures forall u :: u in r.rssUrls <==> u in st.rssUrls && Some(u) != field
    ensures field.Some? && Valid(st) && field.value in st.rssUrls ==> RemovedAt(st.rssUrls, field.value, r.rssUrls)
    ensures r.settings == st.settings && r.keywords == st.keywords && r.sentUrls == st.sentUrls
  {
    match field
    case None => st
    case Some(u) => DeleteRssUrl(st, u)
  }
}

=== FILE: key_probe.dfy ===
/** The probing half of the Google API key checker: one probe request per
    method, the two per-API loops (stop at the first usable method, or test
    all of them, both under an optional per-API limit), the choice of which
    APIs to check, and the loop over them. HTTP is a parameter: a probe
    yields a status and a body, or a `RequestException`; fetching a
    Discovery document yields the document or nothing. */
module KeyProbe {
  import opened Wrappers
  import opened Discovery

  /** The answer to one probe request. */
  datatype Response = Response(status: int, text: string) | RequestError(message: string)

  /** The HTTP side: `requests.get`/`requests.post` on a URL. */
  type Prober = (string, string) -> Response

  /** What was sent along with the request: nothing, the parsed query
      string of a GET, or the empty JSON body of a POST. */
  datatype RequestParams = NoParams | QueryParams | JsonBody

  /** The dictionary `test_method` returns. */
  datatype TestResult = TestResult(
    ok: bool,
    statusCode: Option<int>,
    requestUrl: Option<string>,
    responseText: Option<string>,
    httpMethod: string,
    requestParams: RequestParams)

  /** Everything a probe run needs besides the method: the key, `urljoin`
      and the HTTP side. */
  datatype Probe = Probe(apiKey: string, join: (string, string) -> string, send: Prober)

  /** A status that shows the key was accepted: 200, or 400 (the request
      reached the API and was only malformed). */
  predicate Usable(status: int) {
    status == 200 || status == 400
  }

  /** `test_method`. No URL, or a verb other than GET and POST, gives a
      not-ok result without a status; otherwise `ok` is whether the status
      is 200 or 400. */
  function TestMethod(p: Probe, doc: DiscoveryDoc, m: ApiMethod): (r: TestResult)
    ensures r.ok <==> r.statusCode.Some? && Usable(r.statusCode.value)
    ensures r.httpMethod == m.httpMethod
    ensures r.requestUrl == BuildTestRequestUrl(doc, m, p.apiKey, p.join)
    ensures r.requestUrl.None? ==> !r.ok && r.statusCode.None? && r.requestParams == NoParams
    ensures m.httpMethod != "GET" && m.httpMethod != "POST" ==> !r.ok && r.statusCode.None? && r.requestParams == NoParams
    ensures r.statusCode.Some? ==> r.requestUrl.Some? && r.responseText.Some? && p.send(m.httpMethod, r.requestUrl.value) == Response(r.statusCode.value, r.responseText.value)
    ensures r.requestUrl.Some? && (m.httpMethod == "GET" || m.httpMethod == "POST") ==>
      match p.send(m.httpMethod, r.requestUrl.value)
      case Response(status, text) => r.statusCode == Some(status) && r.responseText == Some(text)
      case RequestError(_) => r.statusCode.None? && !r.ok
  {
    var verb := m.httpMethod;
    match BuildTestRequestUrl(doc, m, p.apiKey, p.join)
    case None => TestResult(false, None, None, None, verb, NoParams)
    case Some(url) =>
      if verb != "GET" && verb != "POST" then
        TestResult(false, None, Some(url), Some("Not tested (unsupported method: " + verb + ")"), verb, NoParams)
      else
        var params := if verb == "GET" then QueryParams else JsonBody;
        match p.send(verb, url)
        case RequestError(e) => TestResult(false, None, Some(url), Some("Request error: " + e), verb, params)
        case Response(status, text) => TestResult(Usable(status), Some(status), Some(url), Some(text), verb, params)
  }

  /** Without a URL, or for an unsupported verb, no request is sent: the
      result is the same whatever the HTTP side would answer. */
  lemma NoRequestWithoutUrlOrVerb(p: Probe, q: Probe, doc: DiscoveryDoc, m: ApiMethod)
    requires p.apiKey == q.apiKey && p.join == q.join
    requires BuildTestRequestUrl(doc, m, p.apiKey, p.join).None? || (m.httpMethod != "GET" && m.httpMethod != "POST")
    ensures TestMethod(p, doc, m) == TestMethod(q, doc, m)
  {
  }

  /** How many methods an API gets: all of them, or at most `limit` when the
      limit is positive. */
  function Budget(n: nat, limit: int): (b: nat)
    ensures b <= n
    ensures limit <= 0 ==> b == n
    ensures limit > 0 ==> b <= limit && (b < limit ==> b == n)
  {
    if limit > 0 && limit < n then limit else n
  }

  /** The `--test_all_methods` loop: test the methods in order, stopping
      once `limit` (when positive) have been tested. */
  method TestAllMethods(p: Probe, doc: DiscoveryDoc, methods: seq<ApiMethod>, limit: int) returns (results: seq<TestResult>)
    ensures |results| == Budget(|methods|, limit)
    ensures TestedInOrder(p, doc, methods, results)
  {
    results := [];
    var tested := 0;
    for i := 0 to |methods|
      invariant tested == i == |results|
      invariant i <= Budget(|methods|, limit)
      invariant limit > 0 ==> i < limit
      invariant TestedInOrder(p, doc, methods, results)
    {
      tested := tested + 1;
      TestedInOrderStep(p, doc, methods, results);
      results := results + [TestMethod(p, doc, methods[i])];
      if limit > 0 && tested >= limit {
        return;
      }
    }
  }

  /** `results` are the results of testing the first methods, in order. */
  predicate TestedInOrder(p: Probe, doc: DiscoveryDoc, methods: seq<ApiMethod>, results: seq<TestResult>) {
    |results| <= |methods| && forall j | 0 <= j < |results| :: results[j] == TestMethod(p, doc, methods[j])
  }

  lemma TestedInOrderStep(p: Probe, doc: DiscoveryDoc, methods: seq<ApiMethod>, results: seq<TestResult>)
    requires TestedInOrder(p, doc, methods, results) && |results| < |methods|
    ensures TestedInOrder(p, doc, methods, results + [TestMethod(p, doc, methods[|results|])])
  {
    var more := results + [TestMethod(p, doc, methods[|results|])];
    forall j | 0 <= j < |more| ensures more[j] == TestMethod(p, doc, methods[j]) {
      if j < |results| { assert more[j] == results[j]; }
    }
  }

  /** The default loop: test the methods in order until one is ok, stopping
      once `limit` (when positive) have been tested. The result is the first
      ok method's result, only methods before it were tested, and nothing is
      found exactly when no method within the budget is ok. */
  method TestUntilUsable(p: Probe, doc: DiscoveryDoc, methods: seq<ApiMethod>, limit: int) returns (hit: Option<TestResult>, tested: nat)
    ensures tested <= Budget(|methods|, limit)
    ensures hit.Some? ==> 0 < tested && NoneUsable(p, doc, methods, tested - 1)
    ensures hit.Some? ==> hit.value == TestMethod(p, doc, methods[tested - 1]) && hit.value.ok
    ensures hit.None? ==> tested == Budget(|methods|, limit)
    ensures hit.None? <==> NoneUsable(p, doc, methods, Budget(|methods|, limit))
  {
    hit := None;
    tested := 0;
    for i := 0 to |methods|
      invariant tested == i <= Budget(|methods|, limit)
      invariant limit > 0 ==> i < limit
      invariant NoneUsable(p, doc, methods, i)
    {
      tested := tested + 1;
      var r := TestMethod(p, doc, methods[i]);
      if r.ok {
        hit := Some(r);
        return;
      }
      NoneUsableStep(p, doc, methods, i);
      if limit > 0 && tested >= limit {
        return;
      }
    }
  }

  /** None of the first `n` methods gives an ok result. */
  predicate NoneUsable(p: Probe, doc: DiscoveryDoc, methods: seq<ApiMethod>, n: nat)
    requires n <= |methods|
  {
    forall j | 0 <= j < n :: !TestMethod(p, doc, methods[j]).ok
  }

  lemma NoneUsableStep(p: Probe, doc: DiscoveryDoc, methods: seq<ApiMethod>, i: nat)
    requires i < |methods|
    requires NoneUsable(p, doc, methods, i) && !TestMethod(p, doc, methods[i]).ok
    ensures NoneUsable(p, doc, methods, i + 1)
  {
  }

  /** One entry of the discovery list. */
  datatype ApiItem = ApiItem(name: Option<string>, version: Option<string>, discoveryUrl: Option<string>)

  /** An API matches the requested name and version. */
  predicate Matches(api: ApiItem, name: string, version: string) {
    api.name == Some(name) && api.version == Some(version)
  }

  /** The APIs with the given name and version, in list order. */
  function MatchingApis(apis: seq<ApiItem>, name: string, version: string): (r: seq<ApiItem>)
    ensures forall a :: a in r <==> a in apis && Matches(a, name, version)
    ensures |r| <= |apis|
  {
    if apis == [] then []
    else
      var init := apis[..|apis| - 1];
      var last := apis[|apis| - 1];
      assert apis == init + [last];
      MatchingApis(init, name, version) + (if Matches(last, name, version) then [last] else [])
  }

  /** The positions in `apis` of the APIs with that name and version. */
  ghost function MatchingIndices(apis: seq<ApiItem>, name: string, version: string): set<int> {
    set i | 0 <= i < |apis| && Matches(apis[i], name, version)
  }

  /** As many APIs are selected as there are matching positions. */
  lemma {:induction false} MatchingCount(apis: seq<ApiItem>, name: string, version: string)
    ensures |MatchingApis(apis, name, version)| == |MatchingIndices(apis, name, version)|
    decreases |apis|
  {
    if apis == [] {
      assert MatchingIndices(apis, name, version) == {};
    } else {
      var n := |apis| - 1;
      var init := apis[..n];
      MatchingCount(init, name, version);
      var before := MatchingIndices(init, name, version);
      var here: set<int> := if Matches(apis[n], name, version) then {n} else {};
      MatchingIndicesSnoc(apis, name, version);
      assert n !in before;
      assert |before + here| == |before| + |here|;
    }
  }

  lemma MatchingIndicesSnoc(apis: seq<ApiItem>, name: string, version: string)
    requires apis != []
    ensures var n := |apis| - 1;
      MatchingIndices(apis, name, version)
      == MatchingIndices(apis[..n], name, version) + (if Matches(apis[n], name, version) then {n} else {})
  {
    var n := |apis| - 1;
    var init := apis[..n];
    var all, before := MatchingIndices(apis, name, version), MatchingIndices(init, name, version);
    var here: set<int> := if Matches(apis[n], name, version) then {n} else {};
    forall i | i in all ensures i in before + here {
      if i < n { assert init[i] == apis[i]; }
    }
    forall i | i in before + here ensures i in all {
      if i < n { assert init[i] == apis[i]; }
    }
  }

  /** Why the selection failed. */
  datatype SelectError =
    | Unpaired     // only one of `--api_name` and `--api_version` was given
    | NotFound     // no API has that name and version
    | Ambiguous    // more than one API has them

  /** The APIs to check. With a name and a version, exactly one API must
      match; given neither, all are checked; given one alone, it is an error.
      An empty argument counts as not given. */
  function SelectApis(apis: seq<ApiItem>, name: Option<string>, version: Option<string>): (r: Result<seq<ApiItem>, SelectError>)
    ensures r == Failure(Unpaired) <==> Truthy(name) != Truthy(version)
    ensures !Truthy(name) && !Truthy(version) ==> r == Success(apis)
    ensures Truthy(name) && Truthy(version) ==>
      var count := |MatchingIndices(apis, name.value, version.value)|;
      && (r == Failure(NotFound) <==> count == 0)
      && (r == Failure(Ambiguous) <==> count > 1)
      && (r.Success? ==> |r.value| == 1 && r.value[0] in apis && Matches(r.value[0], name.value, version.value))
  {
    if Truthy(name) && Truthy(version) then
      var matching := MatchingApis(apis, name.value, version.value);
      MatchingCount(apis, name.value, version.value);
      if |matching| == 0 then Failure(NotFound)
      else if |matching| > 1 then Failure(Ambiguous)
      else
        assert matching[0] in matching;
        Success(matching)
    else if Truthy(name) || Truthy(version) then Failure(Unpaired)
    else Success(apis)
  }

  /** What is recorded for one API. */
  datatype ApiRecord =
    | FirstUsable(name: Option<string>, version: Option<string>, discoveryUrl: Option<string>, result: TestResult)
    | AllTested(name: Option<string>, version: Option<string>, discoveryUrl: Option<string>, usable: bool, results: seq<TestResult>)

  /** The Discovery document behind a URL, or None when the request raised. */
  type DocFetcher = Option<string> -> Option<DiscoveryDoc>

  predicate AnyOk(results: seq<TestResult>) {
    exists i | 0 <= i < |results| :: results[i].ok
  }

  /** Whether the loop over APIs records anything for `api`: its document
      can be fetched and has methods, and, in the default mode, one of the
      methods within the budget gives an ok result. */
  predicate Recorded(p: Probe, fetch: DocFetcher, api: ApiItem, testAll: bool, limit: int) {
    && fetch(api.discoveryUrl).Some?
    && var doc := fetch(api.discoveryUrl).value;
       var methods := ExtractAllMethods(doc);
       && methods != []
       && (testAll || exists j | 0 <= j < Budget(|methods|, limit) :: TestMethod(p, doc, methods[j]).ok)
  }

  /** `r` is the result of the first method within the budget whose result
      is ok. */
  predicate FirstOk(p: Probe, doc: DiscoveryDoc, methods: seq<ApiMethod>, limit: int, r: TestResult) {
    exists j | 0 <= j < Budget(|methods|, limit) ::
      r == TestMethod(p, doc, methods[j]) && r.ok && NoneUsable(p, doc, methods, j)
  }

  /** `rec` is what the loop over APIs records for `api`: in the default
      mode, the result of the first ok method; with `--test_all_methods`,
      the results of every method within the budget, in method order, and a
      `usable` flag that holds exactly when one of them is ok. */
  predicate RecordFor(p: Probe, fetch: DocFetcher, api: ApiItem, testAll: bool, limit: int, rec: ApiRecord) {
    && ApiOf(rec) == api
    && fetch(api.discoveryUrl).Some?
    && var doc := fetch(api.discoveryUrl).value;
       var methods := ExtractAllMethods(doc);
       if testAll then
         && rec.AllTested?
         && |rec.results| == Budget(|methods|, limit)
         && TestedInOrder(p, doc, methods, rec.results)
         && (rec.usable <==> AnyOk(rec.results))
       else
         rec.FirstUsable? && FirstOk(p, doc, methods, limit, rec.result)
  }

  /** `rec` is recorded exactly when `api` is, and then is its record. */
  predicate Outcome(p: Probe, fetch: DocFetcher, api: ApiItem, testAll: bool, limit: int, rec: Option<ApiRecord>) {
    && (rec.Some? <==> Recorded(p, fetch, api, testAll, limit))
    && (rec.Some? ==> RecordFor(p, fetch, api, testAll, limit, rec.value))
  }

  /** The body of the loop over APIs in `main`: skip the API when its
      document cannot be fetched or has no methods, otherwise run one of the
      two per-API loops and record what it found. */
  method CheckApi(p: Probe, fetch: DocFetcher, api: ApiItem, testAll: bool, limit: int) returns (rec: Option<ApiRecord>)
    ensures fetch(api.discoveryUrl).None? ==> rec.None?
    ensures fetch(api.discoveryUrl).Some? && ExtractAllMethods(fetch(api.discoveryUrl).value) == [] ==> rec.None?
    ensures Outcome(p, fetch, api, testAll, limit, rec)
  {
    var fetched := fetch(api.discoveryUrl);
    if fetched.None? {
      return None;
    }
    var doc := fetched.value;
    var methods := ExtractAllMethods(doc);
    if methods == [] {
      return None;
    }
    if testAll {
      var results := TestAllMethods(p, doc, methods, limit);
      rec := Some(AllTested(api.name, api.version, api.discoveryUrl, AnyOk(results), results));
      AllTestedRecord(p, fetch, api, limit, results);
    } else {
      var hit, tested := TestUntilUsable(p, doc, methods, limit);
      if hit.Some? {
        rec := Some(FirstUsable(api.name, api.version, api.discoveryUrl, hit.value));
        FirstUsableRecord(p, fetch, api, limit, hit.value, tested);
      } else {
        rec := None;
        NothingUsableRecord(p, fetch, api, limit);
      }
    }
  }

  lemma AllTestedRecord(p: Probe, fetch: DocFetcher, api: ApiItem, limit: int, results: seq<TestResult>)
    requires fetch(api.discoveryUrl).Some?
    requires var methods := ExtractAllMethods(fetch(api.discoveryUrl).value);
      && methods != []
      && |results| == Budget(|methods|, limit)
      && TestedInOrder(p, fetch(api.discoveryUrl).value, methods, results)
    ensures Recorded(p, fetch, api, true, limit)
    ensures RecordFor(p, fetch, api, true, limit, AllTested(api.name, api.version, api.discoveryUrl, AnyOk(results), results))
  {
  }

  lemma FirstUsableRecord(p: Probe, fetch: DocFetcher, api: ApiItem, limit: int, hit: TestResult, tested: nat)
    requires fetch(api.discoveryUrl).Some?
    requires var doc := fetch(api.discoveryUrl).value;
      var methods := ExtractAllMethods(doc);
      && 0 < tested <= Budget(|methods|, limit)
      && NoneUsable(p, doc, methods, tested - 1)
      && hit == TestMethod(p, doc, methods[tested - 1]) && hit.ok
    ensures Recorded(p, fetch, api, false, limit)
    ensures RecordFor(p, fetch, api, false, limit, FirstUsable(api.name, api.version, api.discoveryUrl, hit))
  {
    var doc := fetch(api.discoveryUrl).value;
    var methods := ExtractAllMethods(doc);
    var j := tested - 1;
    assert TestMethod(p, doc, methods[j]).ok;
    assert FirstOk(p, doc, methods, limit, hit);
  }

  lemma NothingUsableRecord(p: Probe, fetch: DocFetcher, api: ApiItem, limit: int)
    requires fetch(api.discoveryUrl).Some?
    requires var doc := fetch(api.discoveryUrl).value;
      var methods := ExtractAllMethods(doc);
      NoneUsable(p, doc, methods, Budget(|methods|, limit))
    ensures !Recorded(p, fetch, api, false, limit)
  {
  }

  /** The API a record was made for. */
  function ApiOf(rec: ApiRecord): ApiItem {
    ApiItem(rec.name, rec.version, rec.discoveryUrl)
  }

  /** The loop over APIs in `main`. `idx` names, for each record, the
      position of its API: the positions increase, so there is at most one
      record per API, in API order, and a position appears exactly when
      that API is recorded. */
  method CheckApis(p: Probe, fetch: DocFetcher, apis: seq<ApiItem>, testAll: bool, limit: int) returns (records: seq<ApiRecord>, idx: seq<nat>)
    ensures |idx| == |records| <= |apis|
    ensures forall k | 0 <= k < |idx| :: idx[k] < |apis| && RecordFor(p, fetch, apis[idx[k]], testAll, limit, records[k])
    ensures forall k, l | 0 <= k < l < |idx| :: idx[k] < idx[l]
    ensures forall i | 0 <= i < |apis| :: i in idx <==> Recorded(p, fetch, apis[i], testAll, limit)
  {
    records, idx := [], [];
    ghost var outs: seq<Option<ApiRecord>> := [];
    for i := 0 to |apis|
      invariant |outs| == i
      invariant forall j | 0 <= j < i :: Outcome(p, fetch, apis[j], testAll, limit, outs[j])
      invariant Collected(outs, records, idx)
    {
      var rec := CheckApi(p, fetch, apis[i], testAll, limit);
      CollectedStep(outs, records, idx, rec);
      OutcomesSnoc(p, fetch, apis, testAll, limit, outs, rec);
      outs := outs + [rec];
      if rec.Some? {
        records, idx := records + [rec.value], idx + [i];
      }
    }
    CollectedOutcomes(p, fetch, apis, testAll, limit, outs, records, idx);
  }

  /** `records` are the present entries of `outs`, in order, and `idx`
      their positions. */
  ghost predicate Collected(outs: seq<Option<ApiRecord>>, records: seq<ApiRecord>, idx: seq<nat>) {
    && |idx| == |records| <= |outs|
    && (forall k | 0 <= k < |idx| :: idx[k] < |outs| && outs[idx[k]] == Some(records[k]))
    && (forall k, l | 0 <= k < l < |idx| :: idx[k] < idx[l])
    && (forall j | 0 <= j < |outs| :: j in idx <==> outs[j].Some?)
  }

  lemma CollectedStep(outs: seq<Option<ApiRecord>>, records: seq<ApiRecord>, idx: seq<nat>, rec: Option<ApiRecord>)
    requires Collected(outs, records, idx)
    ensures rec.Some? ==> Collected(outs + [rec], records + [rec.value], idx + [|outs|])
    ensures rec.None? ==> Collected(outs + [rec], records, idx)
  {
    var i := |outs|;
    assert forall k | 0 <= k < |idx| :: idx[k] != i;
  }

  lemma OutcomesSnoc(p: Probe, fetch: DocFetcher, apis: seq<ApiItem>, testAll: bool, limit: int, outs: seq<Option<ApiRecord>>, rec: Option<ApiRecord>)
    requires |outs| < |apis|
    requires forall j | 0 <= j < |outs| :: Outcome(p, fetch, apis[j], testAll, limit, outs[j])
    requires Outcome(p, fetch, apis[|outs|], testAll, limit, rec)
    ensures forall j | 0 <= j < |outs| + 1 :: Outcome(p, fetch, apis[j], testAll, limit, (outs + [rec])[j])
  {
    forall j | 0 <= j < |outs| + 1
      ensures Outcome(p, fetch, apis[j], testAll, limit, (outs + [rec])[j])
    {
      if j < |outs| { assert (outs + [rec])[j] == outs[j]; }
    }
  }

  lemma CollectedOutcomes(p: Probe, fetch: DocFetcher, apis: seq<ApiItem>, testAll: bool, limit: int, outs: seq<Option<ApiRecord>>, records: seq<ApiRecord>, idx: seq<nat>)
    requires |outs| == |apis| && Collected(outs, records, idx)
    requires forall j | 0 <= j < |apis| :: Outcome(p, fetch, apis[j], testAll, limit, outs[j])
    ensures forall k | 0 <= k < |idx| :: idx[k] < |apis| && RecordFor(p, fetch, apis[idx[k]], testAll, limit, records[k])
    ensures forall i | 0 <= i < |apis| :: i in idx <==> Recorded(p, fetch, apis[i], testAll, limit)
  {
    forall k | 0 <= k < |idx|
      ensures idx[k] < |apis| && RecordFor(p, fetch, apis[idx[k]], testAll, limit, records[k])
    {
      assert Outcome(p, fetch, apis[idx[k]], testAll, limit, outs[idx[k]]);
    }
  }
}

=== FILE: text.dfy ===
/** The handful of Python string operations the modelled scripts rely on:
    `str.strip`, the substring test `sub in s`, `str.split(sep)` on one
    character and `sep.join(parts)`. Strings are sequences of Unicode scalar
    values, as Python 3 strings are. */
module Text {
  import opened Wrappers

  /** Python's `str.isspace` for one character: the ASCII controls 0x09-0x0D
      and 0x1C-0x1F, the space, and the Unicode separators Python counts as
      whitespace. */
  predicate IsSpace(c: char) {
    || c == ' '
    || ('\t' <= c <= '\r')
    || ('\U{1C}' <= c <= '\U{1F}')
    || c == '\U{85}'
    || c == '\U{A0}'
    || c == '\U{1680}'
    || ('\U{2000}' <= c <= '\U{200A}')
    || c == '\U{2028}'
    || c == '\U{2029}'
    || c == '\U{202F}'
    || c == '\U{205F}'
    || c == '\U{3000}'
  }

  predicate AllSpace(s: string) {
    forall k | 0 <= k < |s| :: IsSpace(s[k])
  }

  /** `s.lstrip()`: the longest suffix of `s` that does not start with whitespace. */
  function TrimStart(s: string): (r: string)
    ensures |r| <= |s| && r == s[|s| - |r|..]
    ensures AllSpace(s[..|s| - |r|])
    ensures r == [] || !IsSpace(r[0])
    decreases |s|
  {
    if s != [] && IsSpace(s[0]) then
      var r := TrimStart(s[1..]);
      assert s[..|s| - |r|] == [s[0]] + s[1..][..|s| - 1 - |r|];
      r
    else
      s
  }

  /** `s.rstrip()`: the longest prefix of `s` that does not end with whitespace. */
  function TrimEnd(s: string): (r: string)
    ensures |r| <= |s| && r == s[..|r|]
    ensures AllSpace(s[|r|..])
    ensures r == [] || !IsSpace(r[|r| - 1])
    decreases |s|
  {
    if s != [] && IsSpace(s[|s| - 1]) then
      var r := TrimEnd(s[..|s| - 1]);
      assert s[|r|..] == s[..|s| - 1][|r|..] + [s[|s| - 1]];
      r
    else
      s
  }

  /** `s.strip()`: `s` with leading and trailing whitespace removed. The
      result is what remains between two all-whitespace borders; it is empty
      exactly when `s` is all whitespace. */
  function Strip(s: string): (r: string)
    ensures r == [] <==> AllSpace(s)
    ensures r != [] ==> !IsSpace(r[0]) && !IsSpace(r[|r| - 1])
    ensures exists pre, post :: s == pre + r + post && AllSpace(pre) && AllSpace(post)
  {
    var t := TrimStart(s);
    var r := TrimEnd(t);
    StripBorders(s, t, r);
    r
  }

  /** Trimming the start and then the end leaves a core between two
      whitespace borders. */
  lemma StripBorders(s: string, t: string, r: string)
    requires |t| <= |s| && t == s[|s| - |t|..] && AllSpace(s[..|s| - |t|])
    requires t == [] || !IsSpace(t[0])
    requires |r| <= |t| && r == t[..|r|] && AllSpace(t[|r|..])
    requires r == [] || !IsSpace(r[|r| - 1])
    ensures r == [] <==> AllSpace(s)
    ensures r != [] ==> !IsSpace(r[0]) && !IsSpace(r[|r| - 1])
    ensures exists pre, post :: s == pre + r + post && AllSpace(pre) && AllSpace(post)
  {
    var pre, post := s[..|s| - |t|], t[|r|..];
    assert t == r + post;
    assert s == pre + r + post;
    if r == [] {
      assert s == pre + post;
      AllSpaceConcat(pre, post);
    } else {
      assert r[0] == t[0];
      assert r[0] == s[|pre|];
    }
  }

  lemma AllSpaceConcat(a: string, b: string)
    requires AllSpace(a) && AllSpace(b)
    ensures AllSpace(a + b)
  {
    forall k | 0 <= k < |a + b| ensures IsSpace((a + b)[k]) {
      if k < |a| { assert (a + b)[k] == a[k]; } else { assert (a + b)[k] == b[k - |a|]; }
    }
  }

  predicate IsPrefix(p: string, s: string) {
    |p| <= |s| && s[..|p|] == p
  }

  /** `sub` occurs somewhere in `s` as a contiguous run of characters. */
  ghost predicate IsInfix(sub: string, s: string) {
    exists i :: 0 <= i <= |s| && IsPrefix(sub, s[i..])
  }

  /** Python's `sub in s` on strings: case-sensitive and literal; the empty
      string occurs in every string. */
  function Contains(s: string, sub: string): (b: bool)
    ensures b <==> IsInfix(sub, s)
    decreases |s|
  {
    if IsPrefix(sub, s) then
      assert s[0..] == s;
      true
    else if s == [] then
      false
    else
      var b := Contains(s[1..], sub);
      if b then
        var i :| 0 <= i <= |s[1..]| && IsPrefix(sub, s[1..][i..]);
        assert s[1..][i..] == s[i + 1..];
        b
      else
        assert !IsInfix(sub, s) by {
          forall i | 0 <= i <= |s| ensures !IsPrefix(sub, s[i..]) {
            if i > 0 { assert s[i..] == s[1..][i - 1..]; }
          }
        }
        b
  }

  /** Any middle part of a concatenation occurs in it. */
  lemma InfixOfConcat(a: string, b: string, c: string)
    ensures Contains(a + b + c, b)
  {
    var s := a + b + c;
    assert s[|a|..][..|b|] == b;
    assert IsPrefix(b, s[|a|..]);
  }

  /** The tail of a concatenation occurs in it. */
  lemma ContainsSuffix(a: string, b: string)
    ensures Contains(a + b, b)
  {
    assert (a + b)[|a|..] == b;
    assert IsPrefix(b, (a + b)[|a|..]);
  }

  /** Whatever occurs in `a` still occurs once more text follows it. */
  lemma ContainsExtend(a: string, c: string, b: string)
    requires Contains(a, b)
    ensures Contains(a + c, b)
  {
    var i :| 0 <= i <= |a| && IsPrefix(b, a[i..]);
    assert (a + c)[i..][..|b|] == a[i..][..|b|];
  }

  /** A string whose first character does not occur in `s` does not occur
      in `s` either. */
  lemma AbsentFirstChar(s: string, sub: string)
    requires sub != [] && sub[0] !in s
    ensures !Contains(s, sub)
  {
  }

  /** Python's `s.find(c)` for one character, with -1 written as None. */
  function IndexOf(s: string, c: char): (r: Option<nat>)
    ensures r.None? <==> c !in s
    ensures r.Some? ==> r.value < |s| && s[r.value] == c && c !in s[..r.value]
  {
    if s == [] then None
    else if s[0] == c then Some(0)
    else match IndexOf(s[1..], c)
      case None => None
      case Some(k) =>
        assert s[..k + 1] == [s[0]] + s[1..][..k];
        Some(k + 1)
  }

  /** Python's `sep.join(parts)`. */
  function Join(sep: string, parts: seq<string>): string {
    if |parts| == 0 then ""
    else if |parts| == 1 then parts[0]
    else parts[0] + sep + Join(sep, parts[1..])
  }

  /** Python's `s.split(sep)` for a one-character separator: the maximal runs
      between separators, always at least one (possibly empty) part, and no
      part containing the separator. */
  function Split(s: string, sep: char): (parts: seq<string>)
    ensures |parts| >= 1
    ensures forall i | 0 <= i < |parts| :: sep !in parts[i]
    decreases |s|
  {
    match IndexOf(s, sep)
    case None => [s]
    case Some(k) => [s[..k]] + Split(s[k + 1..], sep)
  }

  /** Joining the parts of a split with the separator gives back the string. */
  lemma {:induction false} JoinSplit(s: string, sep: char)
    ensures Join([sep], Split(s, sep)) == s
    decreases |s|
  {
    match IndexOf(s, sep)
    case None =>
    case Some(k) =>
      var rest := s[k + 1..];
      var parts := Split(rest, sep);
      JoinSplit(rest, sep);
      assert Split(s, sep) == [s[..k]] + parts;
      assert ([s[..k]] + parts)[1..] == parts;
      assert Join([sep], Split(s, sep)) == s[..k] + [sep] + Join([sep], parts);
      assert s == s[..k] + [sep] + rest;
  }

  /** Splitting at a first separator: the text before it is the first part
      and the rest is split on. */
  lemma SplitAtFirst(a: string, sep: char, b: string)
    requires sep !in a
    ensures Split(a + [sep] + b, sep) == [a] + Split(b, sep)
  {
    var s := a + [sep] + b;
    assert s[..|a|] == a;
    assert s[|a|] == sep;
    assert IndexOf(s, sep) == Some(|a|);
    assert s[|a| + 1..] == b;
  }

  /** Splitting a join of separator-free parts gives back the parts. */
  lemma {:induction false} SplitJoin(parts: seq<string>, sep: char)
    requires |parts| >= 1
    requires forall i | 0 <= i < |parts| :: sep !in parts[i]
    ensures Split(Join([sep], parts), sep) == parts
    decreases |parts|
  {
    if |parts| == 1 {
      assert IndexOf(parts[0], sep).None?;
    } else {
      var tail := Join([sep], parts[1..]);
      assert Join([sep], parts) == parts[0] + [sep] + tail;
      assert sep !in parts[0];
      assert Split(tail, sep) == parts[1..] by {
        assert forall i | 0 <= i < |parts[1..]| :: parts[1..][i] == parts[i + 1];
        SplitJoin(parts[1..], sep);
      }
      SplitAtFirst(parts[0], sep, tail);
      assert parts == [parts[0]] + parts[1..];
    }
  }

}

=== FILE: wrappers.dfy ===
/** Option and Result: the "value or nothing" and "value or error" shapes the
    modelled Python code expresses with None and with early error exits. */
module Wrappers {

  /** Python's `None` or a present value. */
  datatype Option<+T> = None | Some(value: T) {

    /** The value, or `default` when absent (Python's `x if x is not None else default`). */
    function GetOr(default: T): T {
      match this
      case Some(v) => v
      case None => default
    }
  }

  /** A computation that either produced a value or stopped with an error. */
  datatype Result<+R, +E> = Success(value: R) | Failure(error: E)

  /** Python truthiness of an optional string: present and non-empty. */
  predicate Truthy(o: Option<string>) {
    o.Some? && o.value != ""
  }
}
